=== FILE: README.md ===
# GEngine-R core, modelled in Dafny

This project models the self-contained logic of the GEngine-R game engine, a
C# engine built on SDL2, and proves properties about it. One module covers
each component:

- `AutoOffset`: the adaptive timing-offset controller. It has a per-channel
  correction level in [-5, 5], a dead zone, and a table of steps
  (0.10, 0.20, 0.30, 0.50, 1.00).
- `Sampling`: the bounded sample window and its average.
- `Collections`: the list wrappers of both collection files.
  - Append, first-match remove, clear and membership.
  - Lookup by name or hash, which throws when nothing is found.
  - Lookup of resources by name.
- `SceneManager`: the static name-to-scene registry.
- `GameObjects`:
  - the `GameObject` template with its defaults, and the `Instance` it creates;
  - the validating `ImageIndex` setter, the frame counter of `AnimationStep`,
    and the angle wrap of `Step`;
  - `Instance.Reference`, which uses `Convert.ChangeType`.
- `Scenes`:
  - `Scene.CreateInstance`, which populates a scene instance from its placements;
  - the in-order `Step` and `OnDestroy` sweeps, and what `Reinstance` does.
- `Structs`:
  - `Coord` arithmetic with unchecked 32-bit wrap-around and C# truncating
    division;
  - `ColorRGBA` equality and its named colours;
  - the `ToString` forms of `Coord` and `Size`.
- `Collision`: the box and circle shapes, whose inapplicable properties read 0
  and ignore assignments.
- `Input`: the key and mouse state machine of `InputManager.PollEvent`, and the
  window and engine callbacks it raises.
- `TextCache`: the bounded cache of rendered text textures.
- `Loader`: `TryParseIni`, with the regular expression `(.+)\s?=\s?(.+)`
  analysed into the position where it splits a line.
- `DebuggingServer`:
  - the client reply decoder;
  - the server information packet, both as the code builds it and as its
    header comment lays it out;
  - the `_insert` helper, both as written and as intended;
  - the constructor, `Initialize`, `Start` and `Stop` guards.
- `Errors` and `Resources`: the exception kinds, results, and the resource
  records the components share.

How C# behaviour is represented:

- Every exception the code throws becomes an `Err` of the matching kind.
  `EngineException` carries its message and source tag, exactly as the code
  builds them.
- Some operations change state before they throw. These return an `Outcome`,
  which holds both the new state and the result:
  - `AnimationStep` resets its counter first.
  - A text-cache miss evicts before rendering.
  - `_insert` writes one byte before it fails.
- Virtual callbacks are recorded as a trace of calls, in order.
- Anything external becomes a parameter:
  - instance hashes (`Guid.NewGuid`);
  - the measured frame times;
  - the SDL event queue;
  - the renderer's success or failure;
  - the dictionary entry a full cache gives up;
  - the contents of the INI file.
- `double` values are `real`.

Behaviour of the code worth noting:

- `AdjustOffsets` has no bound on the offset relative to its baseline and no
  reset on saturation. The level only saturates at ±5, and each further call
  keeps adding ±1.00.
- `Scene.CreateInstance` does not call the scene's own `OnCreate`, and it
  resets the view to (0, 0).
- `SceneInstance.Reinstance` only runs the `OnDestroy` sweep and then the
  scene's `OnCreate` hook, which is empty by default. The instance collection
  is neither cleared nor repopulated.

## Model

| member | source | states |
|---|---|---|
| AutoOffset.AdjustChannel | src/Engine/AutoOffset.cs:49-80 | Within the dead zone the channel is unchanged. A positive deviation first resets a negative level to 0, then raises it, capped at 5; the offset then rises by `_range[level-1]`. A negative deviation mirrors this. The level always stays in [-5, 5]. |
| AutoOffset.NewController | src/Engine/AutoOffset.cs:28-36 | A new controller has both levels at 0, keeps the baseline offsets, and has dead zone 0.1 unless one is given. |
| AutoOffset.AdjustOffsets | src/Engine/AutoOffset.cs:38-116 | Each channel is adjusted by its deviation, which is the measured time minus 1000/target. The levels stay valid, and the baselines and dead zone are untouched. |
| AutoOffset.DeadzoneKeepsChannel | src/Engine/AutoOffset.cs:43-49 | When the tick deviation is within the dead zone, the TPS level and offset are unchanged. |
| AutoOffset.DeviationDirection | src/Engine/AutoOffset.cs:52-80 | Outside the dead zone the level becomes nonzero with the sign of the deviation. The offset moves in that direction. |
| AutoOffset.ChannelsIndependent | src/Engine/AutoOffset.cs:49-115 | The TPS result depends only on the TPS level, offset and measurement. It does not depend on the FPS channel. |
| AutoOffset.FpsIndependentOfTps | src/Engine/AutoOffset.cs:83-115 | The FPS result depends only on the FPS level, offset and measurement. It does not depend on the TPS channel. |
| AutoOffset.CorrectionAtMostOne | src/Engine/AutoOffset.cs:59-80 | Every applied step is at most 1.00 in size, so the last table entry, 1.50, is never used. |
| AutoOffset.PersistentAboveClosedForm | src/Engine/AutoOffset.cs:52-80 | From level 0, repeated slow ticks give levels 1, 2, 3, 4, 5, 5, … The offset grows by the prefix sums of the table, then by 1.00 per call. |
| AutoOffset.AboveBelowSymmetric | src/Engine/AutoOffset.cs:52-80 | A fast tick on a negated channel is the negation of a slow tick. |
| AutoOffset.RepeatSymmetric | src/Engine/AutoOffset.cs:52-80 | The same symmetry holds for any number of repeated ticks. |
| AutoOffset.PersistentBelowClosedForm | src/Engine/AutoOffset.cs:64-80 | Repeated fast ticks give levels -1 … -5, -5, …, and the offset falls by the same amounts. |
| Sampling.NewSampler | src/Sampler.cs:14-19 | The constructor succeeds exactly when `maxPoints >= 2`, with an empty window. |
| Sampling.AddPoint | src/Sampler.cs:21-28 | The point goes at the end. On overflow exactly the oldest point is dropped, and the count never exceeds the maximum. |
| Sampling.AddPointsKeepsLastWindow | src/Sampler.cs:21-28 | After any sequence of additions, the window is the last `max` points of all points ever added, in order. |
| Sampling.FreshSamplerWindow | src/Sampler.cs:14-28 | A new sampler fed n points holds the last min(n, max) of them. |
| Sampling.GetAverage | src/Sampler.cs:30-38 | The average of an empty window is undefined (NaN in the code). Otherwise the average times the count is the sum. |
| Sampling.AverageWithinBounds | src/Sampler.cs:30-38 | The average lies between any lower and upper bound of the points. |
| Collections.Add | src/Collections.cs:81-86 | `Add` appends at the end: the count grows by one and nothing is reordered. |
| Collections.Clear | src/Collections.cs:88-91 | `Clear` leaves count 0. |
| Collections.Contains | src/Game/Collections.cs:34-37 | `Contains` holds iff the item occurs in the list. |
| Collections.Remove | src/Collections.cs:108-111 | `Remove` returns true iff the item was present, and it shortens the list by one exactly then. |
| Collections.RemoveDeletesFirst | src/Game/Collections.cs:49-52 | `Remove` deletes the first occurrence, and the rest keep their order. |
| Collections.RemoveIsMultisetDifference | src/Game/Collections.cs:109-112 | `Remove` takes exactly one copy of the item out of the collection's multiset. |
| Collections.RemoveFromPrefix | src/Collections.cs:108-111 | Elements after the first occurrence do not affect which one is removed. |
| Collections.RemoveAppendedNew | src/Collections.cs:108-111 | Removing an item that was appended to a list without it gives back that list. |
| Collections.AddThenRemove | src/Game/Collections.cs:24-52 | `Add` and then `Remove` restores the list when the item was new. Otherwise the older copy is removed, which rotates the item to the end. |
| Collections.CountAfterOperations | src/Game/Collections.cs:20-37 | `Count` after `Add` and `Clear`, and membership after each. |
| Collections.GetGameObject | src/Collections.cs:59-66 | Returns the first template whose `ObjectName` matches. It throws the `GameObjectCollection.Get()` exception exactly when there is none. |
| Collections.GetInstanceByHash | src/Collections.cs:127-134 | Returns the first instance with the hash. It throws exactly when there is none, with the `EngineException` whose message quotes the hash in its standard text. |
| Collections.NameProbe | src/Collections.cs:122 | The per-instance test answers true iff the referenced template's `ObjectName` is the name. A failing `Reference` passes its own exception on. A null reference read through `dynamic` throws `RuntimeBinderException`. |
| Collections.GetInstanceByName | src/Collections.cs:118-125 | Scans in order and returns the first match. An exception from `Reference` escapes. It throws `EngineException` exactly when every probe answers "no". |
| Collections.ReferenceNeverEngineError | src/Game/GameObject.cs:81-87 | Failures of `Reference` are `ArgumentNull` or `InvalidCast`, never `EngineException`. |
| Collections.UntypedInstancesBlockNameLookup | src/Collections.cs:118-125 | An instance created from a template with no `Type` makes the name lookup throw `ArgumentNullException` when the scan reaches it. |
| Collections.ContainsName | src/Game/Collections.cs:87-97 | `Contains(string)` holds iff some resource has that name. |
| Collections.GetResource | src/Collections.cs:196-203 | Succeeds iff `Contains(name)`. It returns the first resource with that name; otherwise it throws the `ResourceCollection.Get()` exception. |
| Collections.GetResourceAfterAdd | src/Collections.cs:149-203 | A resource just added can be found by name. An earlier resource with the same name shadows it. |
| Collections.GetResourceOfPrefix | src/Collections.cs:196-203 | The lookup on a concatenation is the lookup on the first part when that part has the name, otherwise the lookup on the second part. |
| SceneManager.AddScene | src/Engine/SceneManager.cs:12-22 | A fresh name is added with its scene and nothing else changes. An existing name throws the exact `EngineException`. |
| SceneManager.GetScene | src/Engine/SceneManager.cs:23-33 | Returns the stored scene iff the name is present; otherwise it throws. |
| SceneManager.RemoveScene | src/Engine/SceneManager.cs:34-44 | Removes only that name iff it is present; otherwise it throws. |
| SceneManager.HasSceneAgreesWithGuards | src/Engine/SceneManager.cs:12-48 | `HasScene` holds iff `GetScene` and `RemoveScene` succeed, and iff `AddScene` throws. |
| SceneManager.AddThenGet | src/Engine/SceneManager.cs:12-33 | After adding a fresh name, `GetScene` returns that scene. |
| SceneManager.AddThenRemove | src/Engine/SceneManager.cs:12-44 | Adding a fresh name and then removing it restores the registry. |
| SceneManager.RemoveThenAdd | src/Engine/SceneManager.cs:12-44 | Removing a name and adding its scene back restores the registry. |
| SceneManager.DistinctNamesCommute | src/Engine/SceneManager.cs:12-22 | Additions of different names commute. |
| GameObjects.NewGameObject | src/Game/GameObject.cs:45-55 | A new template has scale 1/1, angle 0, index 0 and speed 0, and is animated and activated. |
| GameObjects.NewInstance | src/Game/GameObject.cs:116-124 | A new instance has position (0, 0), depth 0, image index 0 and animation counter 0. |
| GameObjects.SetImageIndex | src/Game/GameObject.cs:94-102 | Rejects negative values. With a sprite set, it also rejects a nonzero value at or beyond the frame count. Zero is always accepted. |
| GameObjects.SetImageIndexKeepsFrame | src/Game/GameObject.cs:94-102 | An accepted index lies within a non-empty sprite. A sprite with no frames accepts only 0. |
| GameObjects.CreateInstance | src/Game/GameObject.cs:24-43 | Every default is copied, `BaseReference` is the template, and `Offset` is a copy. It throws iff the default index is rejected by the setter. |
| GameObjects.CreateInstanceOfDefaults | src/Game/GameObject.cs:24-55 | A freshly constructed template always yields an instance, whatever sprite it has. |
| GameObjects.Reference | src/Game/GameObject.cs:81-87 | `Convert.ChangeType` throws `ArgumentNull` for a null type and `InvalidCast` for a type other than the object's class. Otherwise it returns the base reference. |
| GameObjects.ReferenceOfCreatedInstance | src/Game/GameObject.cs:81-87 | A created instance's `Reference` works iff the template's `Type` is its own class. |
| GameObjects.NormalizeAngle | src/Game/GameObject.cs:62-67 | One ±360 adjustment maps [-360, 720) into [0, 360), and angles in range are unchanged. |
| GameObjects.NormalizeAngleIsOneStep | src/Game/GameObject.cs:65-66 | Only one adjustment is made: 720 becomes 360, and -400 becomes -40. |
| GameObjects.Step | src/Game/GameObject.cs:62-67 | `Step` changes only the angle, and wraps it as above. |
| GameObjects.AnimationStep | src/Game/GameObject.cs:126-142 | Below the speed, the counter increments. Otherwise the counter resets and the index advances, wrapping after the last frame. A missing sprite throws `NullReference` after the reset. The frame invariant is preserved. |
| GameObjects.AnimationAdvancesEverySpeedPlusOne | src/Game/GameObject.cs:126-142 | From counter 0, speed + 1 steps advance the frame by exactly one, with wrap. |
| GameObjects.CountingPhase | src/Game/GameObject.cs:138-141 | The first `speed` steps only count. |
| GameObjects.GuidText | src/Collections.cs:133 | A `Guid`'s text is 36 characters: hex digits in groups of 8, 4, 4, 4 and 12, with hyphens between. Its digits spell the `Guid` back. |
| Scenes.NewScene | src/Game/Scene.cs:14-32 | A new scene keeps its size, animates sprites, and has no placements. |
| Scenes.CreateSceneInstance | src/Game/Scene.cs:34-52 | One instance per placement, in order, at the placement's position. Each template's `OnCreate` fires right after its instance is added, with the count so far. The view is at (0, 0). The scene's own `OnCreate` is not called. |
| Scenes.PlacedInstance | src/Game/Scene.cs:45-46 | A placed instance has its placement's position and template, and its hash. |
| Scenes.StepScene | src/Game/Scene.cs:59-65 | Each instance's `Step` is called exactly once, in collection order, with no culling. A missing base reference throws `NullReference` at that instance. |
| Scenes.StepSceneWrapsAngles | src/Game/Scene.cs:59-65 | After a scene step, every angle in [-360, 720) lies in [0, 360), and the instances keep their identity. |
| Scenes.OnDestroy | src/Game/Scene.cs:67-73 | Each instance's `OnDestroy` is called exactly once, in collection order. |
| Scenes.DestroyCalls | src/Game/Scene.cs:69-72 | The destroy loop stops at the first instance without a base reference. |
| Scenes.Reinstance | src/Game/Scene.cs:89-93 | `Reinstance` is the `OnDestroy` sweep followed by the scene's `OnCreate` hook. The instances are left as they were. |
| Scenes.ReinstanceAfterCreate | src/Game/Scene.cs:89-93 | On a freshly created scene instance, `Reinstance` destroys every instance once, in order, and keeps the collection. |
| Structs.Int32Div | src/Structs.cs:114 | C# `int` division truncates toward zero. It throws on a zero divisor, and overflows on `int.MinValue / -1`. |
| Structs.CopyCoord | src/Structs.cs:105-109 | The copy constructor gives an equal `Coord`. |
| Structs.Add | src/Structs.cs:111 | Componentwise sum, modulo 2^32. |
| Structs.Sub | src/Structs.cs:112 | Componentwise difference, modulo 2^32. |
| Structs.Mul | src/Structs.cs:113 | Componentwise product, modulo 2^32. |
| Structs.Div | src/Structs.cs:114 | Componentwise quotient, truncated toward zero: each remainder is smaller than its divisor and has the sign of its dividend. It throws iff either division throws. The X division's exception wins, and otherwise the Y division's is raised: `DivideByZero` for a zero divisor, `Overflow` for `int.MinValue / -1`. |
| Structs.AddScalar | src/Structs.cs:116 | `Coord + int` adds the scalar to both components. |
| Structs.SubScalar | src/Structs.cs:117 | `Coord - int` subtracts it from both components. |
| Structs.MulScalar | src/Structs.cs:118 | `Coord * int` multiplies both components. |
| Structs.DivScalar | src/Structs.cs:119 | `Coord / int` divides both components. |
| Structs.AddSubCancel | src/Structs.cs:111-112 | `(a + b) - b == a`, even with wrap-around. |
| Structs.MulDivCancel | src/Structs.cs:113-114 | `(a * b) / b == a` when the product does not wrap. |
| Structs.IntToString | src/Structs.cs:123 | An `int` is written in canonical decimal: a '-' exactly when it is negative, then digits with no leading zero, and never "-0". That text reads back as the same number. |
| Structs.IntToStringUnique | src/Structs.cs:123 | A canonical text is the only one written for its value, so the text of a number is fixed. |
| Structs.CoordToString | src/Structs.cs:121-124 | `Coord.ToString` writes `"X, Y"`, and splitting that text at its comma gives back both components. |
| Structs.CoordTextUnique | src/Structs.cs:121-124 | `Coord.ToString` writes exactly the two canonical numbers joined by ", ". |
| Structs.SizeToString | src/Structs.cs:137-140 | `Size.ToString` writes `"WxH"`, and splitting that text at its 'x' gives back the width and height. |
| Structs.SizeTextUnique | src/Structs.cs:137-140 | `Size.ToString` writes exactly the two canonical numbers joined by "x". |
| Structs.Rgb | src/Structs.cs:74-80 | The three-channel constructor keeps the channels and sets alpha to 255. |
| Structs.ColorEquals | src/Structs.cs:89-90 | `==` holds iff all four channels are equal. |
| Structs.ColorNotEquals | src/Structs.cs:91 | `!=` is the negation of `==`. |
| Structs.ColorEqualsIsEquivalence | src/Structs.cs:89-91 | `==` is reflexive, symmetric and transitive. |
| Structs.NamedColours | src/Structs.cs:64-68 | The named colours have the listed channels and alpha 255, and they are pairwise different. |
| Collision.Type | src/Game/Collision.cs:32-52 | A box reports `Box` and a circle reports `Circle`. |
| Collision.UBound | src/Game/Collision.cs:37-53 | A circle's upper bound is always 0. |
| Collision.DBound | src/Game/Collision.cs:38-54 | A circle's lower bound is always 0. |
| Collision.RBound | src/Game/Collision.cs:39-55 | A circle's right bound is always 0. |
| Collision.LBound | src/Game/Collision.cs:40-56 | A circle's left bound is always 0. |
| Collision.Radius | src/Game/Collision.cs:41-57 | A box's radius is always 0. |
| Collision.Diameter | src/Game/Collision.cs:23-27 | The diameter is twice the radius, modulo 2^32, so a box's diameter is 0. |
| Collision.SetUBound | src/Game/Collision.cs:37-53 | On a box it sets only the upper bound. On a circle it is a no-op. |
| Collision.SetDBound | src/Game/Collision.cs:38-54 | On a box it sets only the lower bound. On a circle it is a no-op. |
| Collision.SetRBound | src/Game/Collision.cs:39-55 | On a box it sets only the right bound. On a circle it is a no-op. |
| Collision.SetLBound | src/Game/Collision.cs:40-56 | On a box it sets only the left bound. On a circle it is a no-op. |
| Collision.SetRadius | src/Game/Collision.cs:41-57 | On a circle it sets the radius. On a box it is a no-op. |
| Collision.IgnoredAssignments | src/Game/Collision.cs:41-56 | Assignments to the inapplicable properties are ignored: they read 0 afterwards. |
| Input.IsDown | src/Engine/Input.cs:56-65 | False for a key never seen; otherwise the stored state. |
| Input.IsUp | src/Engine/Input.cs:66-69 | `IsUp` is `!IsDown`. |
| Input.IsPressed | src/Engine/Input.cs:70-73 | Always throws `NotImplementedException`. |
| Input.IsReleased | src/Engine/Input.cs:74-77 | Always throws `NotImplementedException`. |
| Input.ApplyEvent | src/Engine/Input.cs:82-171 | Key-down and key-up set only their key, inserting it if unseen. Mouse events leave keys alone. Window and render-reset events change no state, and raise their callback only when a handler is attached. |
| Input.PollEvent | src/Engine/Input.cs:78-173 | Draining the queue raises at most one callback per event, and none when no handler is attached. A key once in the dictionary stays there. |
| Input.PollEventConcat | src/Engine/Input.cs:78-173 | Draining a queue in two parts gives the same state and callbacks as draining it whole. |
| Input.PollEventSnoc | src/Engine/Input.cs:78-173 | An event added at the end of the queue is handled after all the others, from the state they leave. |
| Input.MouseEventSetsOnlyItsFlag | src/Engine/Input.cs:138-164 | A mouse event sets exactly its own button's flag, and other buttons are ignored. |
| Input.LastKeyEventWins | src/Engine/Input.cs:78-172 | After polling, a key's state is set by its last key event. A key with no event keeps its state. |
| Input.OnlyKeyEventsChangeKeys | src/Engine/Input.cs:119-137 | Dropping every non-key event from the queue leaves the same key dictionary. |
| Input.NonInputEventsKeepState | src/Engine/Input.cs:84-170 | Window and render-reset events leave all state as it was. With both handlers attached, each one raises one callback, except ignored window sub-events. |
| TextCache.NewTextCache | src/Engine/TextCache.cs:18-23 | The cache starts empty, with capacity 100 by default. |
| TextCache.HasCache | src/Engine/TextCache.cs:25-33 | True iff some key has the font and text and an equal colour under `ColorRGBA ==`. |
| TextCache.GetTexture | src/Engine/TextCache.cs:34-42 | Returns the cached texture, and the null pointer exactly on a miss. |
| TextCache.MakeRoom | src/Engine/TextCache.cs:53-58 | A full cache gives up exactly one entry; a cache that is not full is unchanged. |
| TextCache.RetrieveTexture | src/Engine/TextCache.cs:44-82 | A hit returns the stored texture and changes nothing. A miss evicts when full, then renders: a failure throws and keeps the eviction, and a success caches the new texture and returns it. With capacity at least 1 the count stays within it. |
| TextCache.RetrieveAgainHits | src/Engine/TextCache.cs:44-82 | After a successful miss, the same request is a hit returning the same texture, whatever the renderer would do. |
| TextCache.MissEvictsOnlyVictim | src/Engine/TextCache.cs:53-58 | A miss in a full cache removes only the evicted entry, and the new entry is present. |
| Loader.LastSplit | src/Loader.cs:22 | The pattern splits at the last `=` that has a character on each side, and such an `=` exists iff the line matches. |
| Loader.Trim | src/Loader.cs:28 | `Trim(' ', '"')` removes only spaces and double quotes from both ends, and leaves neither at an end. |
| Loader.Groups | src/Loader.cs:25-28 | Group 1 is the text before that `=`. Group 2 is the rest, minus one leading white space when another character follows it. |
| Loader.MatchLine | src/Loader.cs:22-28 | A line matches iff it has an `=` with at least one character before it and one after it. |
| Loader.TryParseIni | src/Loader.cs:13-36 | A missing file gives false and a null dictionary. An existing file gives true with the matching lines' pairs in file order, and the other lines are reported. A repeated key throws `ArgumentException`. |
| Loader.FirstDuplicateStays | src/Loader.cs:28 | Once a line repeats an earlier key, the file's keys are not distinct, so `Add` must throw. |
| Loader.IniLineRoundTrip | src/Loader.cs:22-28 | `key=value` and `key = value` read back as the pair, for trimmed keys and values with no `=` in the value. |
| Loader.ShortLinesSkipped | src/Loader.cs:22-33 | Lines of at most two characters never match. |
| DebuggingServer.DecodeResponse | src/Net/DebuggingServer.cs:226-233 | Fewer than 5 bytes throw the "Insufficient packet data." exception. The type is byte 0, and the version is bytes 1 and 2, low byte first. The user name is `data[3]` bytes from offset 4, which throws when they run past the end. |
| DebuggingServer.ResponseRoundTrip | src/Net/DebuggingServer.cs:226-233 | An encoded reply decodes to itself, whatever padding follows it. |
| DebuggingServer.DecodedResponseIsEncoded | src/Net/DebuggingServer.cs:226-233 | A decoded buffer is the encoding of its reply followed by the rest. |
| DebuggingServer.ListenerBufferAlwaysDecodes | src/Net/DebuggingServer.cs:185-187 | The listener's 260-byte buffer always decodes. |
| DebuggingServer.Utf8Encode | src/Net/DebuggingServer.cs:110 | `Encoding.UTF8.GetBytes` yields 1 to 3 bytes per code unit, and is the identity on ASCII. |
| DebuggingServer.Truncate255 | src/Net/DebuggingServer.cs:101-102 | Titles and company names are cut to their first 255 code units; a string of at most 255 is kept whole. |
| DebuggingServer.BlockCopy | src/Net/DebuggingServer.cs:107-119 | `Buffer.BlockCopy` writes only the destination range from the source range. A negative argument throws `ArgumentOutOfRangeException` naming the first negative of `srcOffset`, `dstOffset` and `count`; a range past either end throws `ArgumentException`. |
| DebuggingServer.PackInfoAsWritten | src/Net/DebuggingServer.cs:99-121 | The packet has length 14 plus both lengths, byte 0 is 200 and every other byte is 0. It throws iff the UTF-8 excess of the names is more than 3 bytes. |
| DebuggingServer.PackInfoAsWrittenIsBlank | src/Net/DebuggingServer.cs:103-119 | With ASCII names the packet is 200 followed by zeros, whatever the versions and names. |
| DebuggingServer.PackInfoAsWrittenRejectsAccents | src/Net/DebuggingServer.cs:110-119 | A title of four 'é' makes the method throw. |
| DebuggingServer.Layout | src/Net/DebuggingServer.cs:15-25 | The header's layout has 14 bytes plus the two names. |
| DebuggingServer.Unpack | src/Net/DebuggingServer.cs:15-25 | Reading a packet gives lengths that add up to the packet's size. |
| DebuggingServer.UnpackLayout | src/Net/DebuggingServer.cs:15-25 | Every laid-out message reads back as itself. |
| DebuggingServer.LayoutUnpack | src/Net/DebuggingServer.cs:15-25 | Every readable packet is the layout of what it reads as. |
| DebuggingServer.Int32RoundTrip | src/Net/DebuggingServer.cs:118-119 | `BitConverter` bytes of an `int` read back as that `int`. |
| DebuggingServer.PackInfo | src/Net/DebuggingServer.cs:99-121 | The intended packet reads back as type 200, the versions, the encoded names and the engine version. |
| DebuggingServer.PackInfoCarriesAsciiNames | src/Net/DebuggingServer.cs:99-121 | For ASCII names of at most 255 characters, the packet carries the names byte for byte. |
| DebuggingServer.InsertLoop | src/Net/DebuggingServer.cs:96-97 | The copy loop writes `data[0]` on its first iteration, and on its second it reads `data[-1]`. |
| DebuggingServer.InsertAsWritten | src/Net/DebuggingServer.cs:92-98 | The `>=` guard rejects blocks ending at the array's end. A one-byte block is written. A longer block writes one byte and then throws `IndexOutOfRange`. An overflowing `index + data.Length` returns without writing. |
| DebuggingServer.Insert | src/Net/DebuggingServer.cs:92-98 | The intended insert succeeds iff the block fits. It then overwrites exactly `src[index..index+len]` with `data`. |
| DebuggingServer.InsertOwnBlock | src/Net/DebuggingServer.cs:92-98 | Inserting the block already in place changes nothing. |
| DebuggingServer.InsertIdempotent | src/Net/DebuggingServer.cs:92-98 | Inserting twice is the same as inserting once. |
| DebuggingServer.InsertAsWrittenBreaksOnTwoBytes | src/Net/DebuggingServer.cs:96-97 | Where a block of two or more bytes fits, the code as written throws after one byte, while the intended insert succeeds. |
| DebuggingServer.InsertAsWrittenRejectsExactFit | src/Net/DebuggingServer.cs:94-95 | A block ending exactly at the array's end is rejected. |
| DebuggingServer.InsertAsWrittenIgnoresOverflow | src/Net/DebuggingServer.cs:94-97 | With `index = int.MaxValue` the call returns without writing or throwing. |
| DebuggingServer.NewServer | src/Net/DebuggingServer.cs:51-59 | A null engine throws. Otherwise the server has its port (7892 by default), no listener, and version 1.0. |
| DebuggingServer.Initialize | src/Net/DebuggingServer.cs:60-73 | Succeeds once, on a nonzero port. Port 0 throws, and so does a second call, each with its exact message. |
| DebuggingServer.Start | src/Net/DebuggingServer.cs:74-83 | Throws before `Initialize`. It starts a listener unless one is already listening. |
| DebuggingServer.Stop | src/Net/DebuggingServer.cs:84-91 | Clears the listening flag and changes nothing else. |
| DebuggingServer.InitializeOnlyOnce | src/Net/DebuggingServer.cs:60-83 | A new server initializes once, the second call throws, and `Start` then starts a listener. |
| DebuggingServer.StartNeedsInitialize | src/Net/DebuggingServer.cs:74-77 | `Start` on a new server throws. |

## Left out

- Object identity: `List.Contains` and `List.Remove` compare `GameObject`,
  `Instance` and resources by reference. The model compares them by value, so
  two distinct objects with equal fields count as the same item.
- Shared instances: C# can add the same `Instance` object to an
  `InstanceCollection` twice, and `Scene.Step` then steps that one object
  twice (an angle of 800 becomes 440, then 80). The model holds values, so
  `Scenes.StepScene` steps two independent copies and both end at 440.
- Shared templates: each modelled instance holds its own copy of its
  `GameObject` template. In C# the template is shared, so a later change to
  it, such as its `ObjectName`, is seen by `InstanceCollection.Get(name)`;
  in the model a change after creation is not seen.
- Dictionary enumeration order: the entry a full text cache evicts, found by
  `FirstOrDefault`, is a parameter. Any cached key may be chosen.
- Native calls: `TTF_RenderText_Solid`, `SDL_CreateTextureFromSurface`,
  `SDL_FreeSurface` and `SDL_DestroyTexture` are outside the model. The render
  result is a parameter that may fail.
- `InputManager.Init`, the unused `_statePressed` and `_stateReleased`
  dictionaries, and the gamepad structs are out of scope. `SDL_PollEvent` is
  replaced by a sequence of events.
- File access in `TryParseIni`: the file is given as its lines, or `None` when
  it does not exist. The log line for a skipped line is modelled as the list
  of skipped lines.
- Loader.TryParseIni: requires lines without line breaks, which
  `File.ReadAllLines` guarantees. When `Add` throws, the `out` dictionary the
  caller already holds is partly filled, and the model returns only the error.
- Loader.MatchLine: models the regular expression by the analysed position of
  its split, not by a regex engine. The white-space class is the set .NET's
  `\s` matches.
- The debugging server's listener thread, sockets, timeouts, client table and
  logging are out of scope.
- DebuggingServer.DecodeResponse: keeps the user name as its UTF-8 bytes,
  because UTF-8 decoding is not modelled.
- The engine version `_packInfo` sends comes from assembly metadata. Here it
  is a parameter.
- `Guid.NewGuid`: instance hashes are parameters.
- Collections.GetInstanceByHash: quotes the hash in its message as the 32 hex
  digits of the 128-bit number standing for it. How a `Guid` orders its bytes
  in memory is not modelled.
- Structs.IntToString: writes numbers as the invariant culture does. The
  interpolated strings of `Coord.ToString` and `Size.ToString` use the current
  culture, whose negative sign may differ. The same holds for
  Structs.CoordToString and Structs.SizeToString.
- SceneManager.AddScene: a null name, which makes the dictionary throw
  `ArgumentNullException`, is not modelled, because scene names here are never
  null.
- SceneManager.GetScene: a null name is not modelled, for the same reason.
- Collections.GetGameObject: a null query name is not modelled. In C#
  `Get(null)` compares with `==` and so returns the first template whose
  `ObjectName` is null; the model's query is always a string.
- Collections.GetInstanceByName: a null query name is not modelled. In C# it
  matches the first instance whose template's `ObjectName` is null.
- Collections.NameProbe: a null query name is not modelled, for the same
  reason.
- Collections.ContainsName: a null query name is not modelled. In C#
  `Contains(null)` is true iff some resource's name is null.
- Collections.GetResource: a null query name is not modelled. In C#
  `Get(null)` returns the first resource whose name is null.
- SceneManager.RemoveScene: a null name is not modelled, for the same reason.
- SceneManager.HasScene: a null name is not modelled, for the same reason.
- Virtual callbacks: `OnCreate`, `Step` and `OnDestroy` overrides of game code
  are recorded as calls in a trace. Only the base `Step`'s angle wrap is
  applied to the instance.
- Input.PollEvent: the `WindowEvent` and `EngineEvent` handlers it invokes
  are game code, recorded as raised callbacks and taken never to throw. A
  handler that throws would abort the drain part-way, leaving the rest of the
  queue unread; the model does not represent that.
- GameObjects.Reference: `TypeName` names only class types. For a value type
  `Convert.ChangeType` throws `InvalidCastException` on a null reference,
  and that case is not modelled.
- Physics: `PhysicsAttributes` and `PhysicsVariables` are placeholders, and
  the physics bridge (`Physics.cs`) is not modelled.
- Scene placements are a list of (template, position) pairs, because the
  placement collection type is not part of this model. A placement with a null
  template is not modelled.
- `SceneInstance.Reference` is the same `Convert.ChangeType` as
  `Instance.Reference`, and is not repeated.
- The engine loop, graphics, audio, depth sorting, view culling and logging
  are not modelled. These are empty stubs or outside this core.
- Sampling.GetAverage: returns no value for an empty window where the code
  returns NaN. Floating point in general is modelled by exact reals.
- AutoOffset.AdjustOffsets: takes the measured times, targets and offsets as
  parameters instead of reading engine properties. A target of 0, which
  gives an infinite interval in C#, counts as running fast.

## Findings

| source | as written | input that shows it | evidently intended | confidence | as-written member | corrected member |
|---|---|---|---|---|---|---|
| src/Net/DebuggingServer.cs:107-119 | Every `Buffer.BlockCopy` passes the packet as the source and a temporary array as the destination. The engine-version copies also start one byte apart, at 6+… and 7+… | version 1.0, title "Game", company "n/a": the packet is 200 followed by 20 zero bytes | the packet laid out as the header comment describes, with each field written into the packet | not executed; high | DebuggingServer.PackInfoAsWrittenIsBlank | DebuggingServer.PackInfo |
| src/Net/DebuggingServer.cs:103-119 | The packet is sized by UTF-16 code units, while the copies count UTF-8 bytes | title "éééé": the last copy reads past the packet and throws `ArgumentException` | size the packet from the encoded names | not executed; high | DebuggingServer.PackInfoAsWrittenRejectsAccents | DebuggingServer.PackInfo |
| src/Net/DebuggingServer.cs:96-97 | `src[i] = data[index - i]` reads `data` at 0, -1, -2, … | `data` of two bytes at index 0 of a longer array: one byte is written, then `IndexOutOfRangeException` | `src[i] = data[i - index]` | not executed; high | DebuggingServer.InsertAsWrittenBreaksOnTwoBytes | DebuggingServer.Insert |
| src/Net/DebuggingServer.cs:94-95 | The guard rejects `index + data.Length >= src.Length` | one byte at index 2 of a three-byte array is rejected | reject only `index + data.Length > src.Length` | not executed; medium | DebuggingServer.InsertAsWrittenRejectsExactFit | DebuggingServer.Insert |
| src/Net/DebuggingServer.cs:94-97 | `index + data.Length` wraps around for large indices | `index = int.MaxValue` with one byte: the guard passes, the loop never runs, and the call returns normally | throw `ArgumentOutOfRangeException` | not executed; medium | DebuggingServer.InsertAsWrittenIgnoresOverflow | DebuggingServer.Insert |

=== FILE: auto_offset.dfy ===
/** The adaptive timing controller ("auto-offset"). For each cadence, logic
    ticks (TPS) and drawn frames (FPS), it keeps a signed adjustment level.
    Each call compares the measured interval with the target interval
    1000 / rate; outside the dead zone it moves the level one step in the
    direction of the deviation (first resetting a level of the opposite sign),
    caps it at `|Range| - 1`, and adds the step the level selects to that
    cadence's offset.
 */
module AutoOffset {

  /** The adjustment table, ascending. */
  const Range: seq<real> := [0.10, 0.20, 0.30, 0.50, 1.00, 1.50]

  /** The largest level magnitude: the guard `|level| < Range.Length - 1`
      stops the level here, so the last table entry is never selected. */
  const MaxLevel: int := |Range| - 1

  const DefaultDeadzone: real := 0.1

  function AbsReal(x: real): real {
    if x < 0.0 then -x else x
  }

  predicate ValidLevel(level: int) {
    -MaxLevel <= level <= MaxLevel
  }

  /** One cadence: its adjustment level and the engine offset it drives. */
  datatype Channel = Channel(level: int, offset: real)

  /** The controller's own state: the base offsets read at construction, the
      dead zone, and the two levels. */
  datatype Controller = Controller(baseTps: real, baseFps: real, deadzone: real, tpsLevel: int, fpsLevel: int)

  ghost predicate Valid(c: Controller) {
    ValidLevel(c.tpsLevel) && ValidLevel(c.fpsLevel)
  }

  /** The engine offsets the controller adjusts. */
  datatype Offsets = Offsets(tps: real, fps: real)

  /** How one measurement relates to its target. `Exact` is a zero deviation
      that still lies outside the dead zone, which happens only for a negative
      dead zone. */
  datatype Deviation = WithinDeadzone | Above | Below | Exact

  /** Classifies `measured - 1000.0 / rate` against the dead zone. The source
      divides in doubles, so a rate of 0 gives an infinite target interval and
      an infinitely negative deviation. */
  function Classify(measured: real, rate: int, deadzone: real): Deviation {
    if rate == 0 then Below
    else
      var deviation := measured - 1000.0 / (rate as real);
      if AbsReal(deviation) <= deadzone then WithinDeadzone
      else if deviation > 0.0 then Above
      else if deviation < 0.0 then Below
      else Exact
  }

  /** The new level after an out-of-dead-zone measurement. */
  function StepLevel(level: int, d: Deviation): int {
    match d
    case Above =>
      var l := if level < 0 then 0 else level;
      if (if l < 0 then -l else l) < MaxLevel then l + 1 else l
    case Below =>
      var l := if level > 0 then 0 else level;
      if (if l < 0 then -l else l) < MaxLevel then l - 1 else l
    case _ => level
  }

  /** The amount a level adds to its offset: the table entry `|level| - 1`,
      with the sign of the level. */
  function Correction(level: int): real
    requires ValidLevel(level)
  {
    if level == 0 then 0.0
    else if level > 0 then Range[level - 1]
    else -Range[-level - 1]
  }

  /** One channel's update in `AdjustOffsets`. */
  function AdjustChannel(ch: Channel, d: Deviation): (r: Channel)
    requires ValidLevel(ch.level)
    ensures ValidLevel(r.level)
    ensures d == WithinDeadzone ==> r == ch
    ensures d == Above ==> 1 <= r.level && r.level == (if ch.level < 0 then 1 else if ch.level < MaxLevel then ch.level + 1 else MaxLevel)
    ensures d == Below ==> r.level <= -1 && r.level == (if ch.level > 0 then -1 else if ch.level > -MaxLevel then ch.level - 1 else -MaxLevel)
    ensures d == Above ==> r.offset == ch.offset + Range[r.level - 1] && r.offset > ch.offset
    ensures d == Below ==> r.offset == ch.offset - Range[-r.level - 1] && r.offset < ch.offset
    ensures d == Exact ==> r.level == ch.level
    ensures d != WithinDeadzone ==> r.offset - ch.offset == Correction(r.level)
  {
    if d == WithinDeadzone then ch
    else
      var l := StepLevel(ch.level, d);
      Channel(l, ch.offset + Correction(l))
  }

  /** The constructor: both levels start at 0; the dead zone defaults to
      `DefaultDeadzone`. The base offsets are the engine's offsets at that
      time; they are recorded but never used afterwards. */
  function NewController(baseTps: real, baseFps: real, deadzone: real := DefaultDeadzone): (c: Controller)
    ensures c.tpsLevel == 0 && c.fpsLevel == 0 && Valid(c)
    ensures c.deadzone == deadzone && c.baseTps == baseTps && c.baseFps == baseFps
  {
    Controller(baseTps, baseFps, deadzone, 0, 0)
  }

  /** The result of one `AdjustOffsets` call: the controller's new levels and
      the engine's new offsets. */
  datatype Adjusted = Adjusted(controller: Controller, offsets: Offsets)

  /** `AdjustOffsets`: the measured logic and frame times and the target rates
      are read from the engine, and the offsets written back to it. */
  function AdjustOffsets(c: Controller, o: Offsets, logictime: real, frametime: real, targetTps: int, targetFps: int): (r: Adjusted)
    requires Valid(c)
    ensures Valid(r.controller)
    ensures r.controller.baseTps == c.baseTps && r.controller.baseFps == c.baseFps && r.controller.deadzone == c.deadzone
    ensures Channel(r.controller.tpsLevel, r.offsets.tps)
            == AdjustChannel(Channel(c.tpsLevel, o.tps), Classify(logictime, targetTps, c.deadzone))
    ensures Channel(r.controller.fpsLevel, r.offsets.fps)
            == AdjustChannel(Channel(c.fpsLevel, o.fps), Classify(frametime, targetFps, c.deadzone))
  {
    var tps := AdjustChannel(Channel(c.tpsLevel, o.tps), Classify(logictime, targetTps, c.deadzone));
    var fps := AdjustChannel(Channel(c.fpsLevel, o.fps), Classify(frametime, targetFps, c.deadzone));
    Adjusted(c.(tpsLevel := tps.level, fpsLevel := fps.level), Offsets(tps.offset, fps.offset))
  }

  /** Inside the dead zone a cadence's level and offset do not change. */
  lemma DeadzoneKeepsChannel(c: Controller, o: Offsets, logictime: real, frametime: real, targetTps: int, targetFps: int)
    requires Valid(c)
    requires targetTps != 0 && AbsReal(logictime - 1000.0 / (targetTps as real)) <= c.deadzone
    ensures var r := AdjustOffsets(c, o, logictime, frametime, targetTps, targetFps);
            r.controller.tpsLevel == c.tpsLevel && r.offsets.tps == o.tps
  {
  }

  /** A logic time above the target by more than the (non-negative) dead zone
      leaves a positive level and raises the offset by that level's entry; one
      below the target mirrors this. */
  lemma DeviationDirection(c: Controller, o: Offsets, logictime: real, frametime: real, targetTps: int, targetFps: int)
    requires Valid(c) && c.deadzone >= 0.0 && targetTps != 0
    ensures var r := AdjustOffsets(c, o, logictime, frametime, targetTps, targetFps);
            var dev := logictime - 1000.0 / (targetTps as real);
            && (dev > c.deadzone ==> r.controller.tpsLevel >= 1 && r.offsets.tps == o.tps + Range[r.controller.tpsLevel - 1])
            && (dev < -c.deadzone ==> r.controller.tpsLevel <= -1 && r.offsets.tps == o.tps - Range[-r.controller.tpsLevel - 1])
  {
  }

  /** The TPS channel's result does not depend on anything only the FPS
      channel reads; `FpsIndependentOfTps` states the converse. */
  lemma ChannelsIndependent(c: Controller, c': Controller, o: Offsets, o': Offsets,
                            logictime: real, frametime: real, frametime': real,
                            targetTps: int, targetFps: int, targetFps': int)
    requires Valid(c) && Valid(c')
    requires c'.tpsLevel == c.tpsLevel && c'.deadzone == c.deadzone && o'.tps == o.tps
    ensures var r := AdjustOffsets(c, o, logictime, frametime, targetTps, targetFps);
            var r' := AdjustOffsets(c', o', logictime, frametime', targetTps, targetFps');
            r.controller.tpsLevel == r'.controller.tpsLevel && r.offsets.tps == r'.offsets.tps
  {
  }

  /** The FPS channel's result does not depend on anything only the TPS
      channel reads. */
  lemma FpsIndependentOfTps(c: Controller, c': Controller, o: Offsets, o': Offsets,
                            logictime: real, logictime': real, frametime: real,
                            targetTps: int, targetTps': int, targetFps: int)
    requires Valid(c) && Valid(c')
    requires c'.fpsLevel == c.fpsLevel && c'.deadzone == c.deadzone && o'.fps == o.fps
    ensures var r := AdjustOffsets(c, o, logictime, frametime, targetTps, targetFps);
            var r' := AdjustOffsets(c', o', logictime', frametime, targetTps', targetFps);
            r.controller.fpsLevel == r'.controller.fpsLevel && r.offsets.fps == r'.offsets.fps
  {
  }

  /** Every correction the controller can apply is at most 1.00 in size: the
      table's last entry, 1.50, is never selected. */
  lemma CorrectionAtMostOne(level: int)
    requires ValidLevel(level)
    ensures -1.0 <= Correction(level) <= 1.0
    ensures Correction(level) != 1.5 && Correction(level) != -1.5
  {
  }

  /** `n` consecutive updates of one channel with the same deviation. */
  function Repeat(ch: Channel, d: Deviation, n: nat): (r: Channel)
    requires ValidLevel(ch.level)
    ensures ValidLevel(r.level)
  {
    if n == 0 then ch else AdjustChannel(Repeat(ch, d, n - 1), d)
  }

  /** The running totals of the table entries the levels 1..5 select. */
  const PrefixSums: seq<real> := [0.0, 0.1, 0.3, 0.6, 1.1, 2.1]

  /** Starting from level 0, a persistent positive deviation drives the level
      through 1, 2, 3, 4, 5, 5, ...: the offset grows by 0.1, 0.2, 0.3, 0.5 and
      then 1.0 on every further call, without bound. */
  lemma {:induction false} PersistentAboveClosedForm(o: real, n: nat)
    ensures n <= MaxLevel ==> Repeat(Channel(0, o), Above, n) == Channel(n, o + PrefixSums[n])
    ensures n > MaxLevel ==> Repeat(Channel(0, o), Above, n) == Channel(MaxLevel, o + 2.1 + (n - MaxLevel) as real)
  {
    if n > 0 {
      PersistentAboveClosedForm(o, n - 1);
    }
  }

  /** Negating the level and the offset turns a positive-deviation update into
      a negative-deviation one. */
  lemma AboveBelowSymmetric(ch: Channel)
    requires ValidLevel(ch.level)
    ensures AdjustChannel(Channel(-ch.level, -ch.offset), Below) == Channel(-AdjustChannel(ch, Above).level, -AdjustChannel(ch, Above).offset)
  {
  }

  lemma {:induction false} RepeatSymmetric(ch: Channel, n: nat)
    requires ValidLevel(ch.level)
    ensures Repeat(Channel(-ch.level, -ch.offset), Below, n) == Channel(-Repeat(ch, Above, n).level, -Repeat(ch, Above, n).offset)
  {
    if n > 0 {
      RepeatSymmetric(ch, n - 1);
      AboveBelowSymmetric(Repeat(ch, Above, n - 1));
    }
  }

  /** The mirror image: a persistent negative deviation drives the level
      through -1, ..., -5 and lowers the offset by the same amounts. */
  lemma PersistentBelowClosedForm(o: real, n: nat)
    ensures n <= MaxLevel ==> Repeat(Channel(0, o), Below, n) == Channel(-(n as int), o - PrefixSums[n])
    ensures n > MaxLevel ==> Repeat(Channel(0, o), Below, n) == Channel(-MaxLevel, o - 2.1 - (n - MaxLevel) as real)
  {
    RepeatSymmetric(Channel(0, -o), n);
    PersistentAboveClosedForm(-o, n);
  }
}

=== FILE: collections.dfy ===
/** The engine's list wrappers: `GameObjectCollection`, `InstanceCollection`
    and `ResourceCollection`. Each stores its elements in a `List`, in
    insertion order; the generic operations below are shared by all three,
    and each collection adds its own lookup that throws when nothing matches.
    Element equality is the equality of the modelled values.
 */
module Collections {
  import opened Errors
  import opened Resources
  import opened GameObjects

  /** `Add`: `List.Add` appends at the end. `InstanceCollection.Add` does the
      same: its depth ordering exists only as a comment. */
  function Add<T>(s: seq<T>, x: T): (r: seq<T>)
    ensures |r| == |s| + 1
    ensures r[..|s|] == s && r[|s|] == x
  {
    s + [x]
  }

  /** `Clear`. */
  function Clear<T>(s: seq<T>): (r: seq<T>)
    ensures |r| == 0
  {
    []
  }

  /** `Contains(item)`: a linear search with equality. */
  function Contains<T(==)>(s: seq<T>, x: T): (b: bool)
    ensures b <==> exists i :: 0 <= i < |s| && s[i] == x
  {
    if |s| == 0 then false else s[0] == x || Contains(s[1..], x)
  }

  /** The position of the first occurrence of `x`. */
  function FirstIndex<T(==)>(s: seq<T>, x: T): (i: nat)
    requires x in s
    ensures i < |s| && s[i] == x
    ensures forall j :: 0 <= j < i ==> s[j] != x
  {
    if s[0] == x then 0
    else
      assert x in s[1..] by {
        var k :| 0 <= k < |s| && s[k] == x;
        assert s[1..][k - 1] == x;
      }
      FirstIndex(s[1..], x) + 1
  }

  /** `Remove(item)`: `List.Remove` deletes the first equal element and
      reports whether there was one. */
  function Remove<T(==)>(s: seq<T>, x: T): (r: (seq<T>, bool))
    ensures r.1 <==> x in s
    ensures !r.1 ==> r.0 == s
    ensures |r.0| == if r.1 then |s| - 1 else |s|
  {
    if |s| == 0 then (s, false)
    else if s[0] == x then (s[1..], true)
    else
      var rest := Remove(s[1..], x);
      if rest.1 then ([s[0]] + rest.0, true) else (s, false)
  }

  /** The element removed is the first occurrence, and the others keep their
      order. */
  lemma {:induction false} RemoveDeletesFirst<T>(s: seq<T>, x: T)
    requires x in s
    ensures var i := FirstIndex(s, x); Remove(s, x).0 == s[..i] + s[i + 1..]
  {
    if s[0] != x {
      RemoveDeletesFirst(s[1..], x);
    }
  }

  /** Removing takes exactly one copy of the item out of the multiset of
      elements, and nothing else. */
  lemma {:induction false} RemoveIsMultisetDifference<T>(s: seq<T>, x: T)
    ensures multiset(Remove(s, x).0) == multiset(s) - multiset{x}
  {
    if |s| > 0 && s[0] != x {
      RemoveIsMultisetDifference(s[1..], x);
      assert s == [s[0]] + s[1..];
      if x in s[1..] {
        assert multiset(s) == multiset{s[0]} + multiset(s[1..]);
      } else {
        assert x !in multiset(s);
      }
    } else if |s| > 0 {
      assert s == [s[0]] + s[1..];
    }
  }

  lemma {:induction false} RemoveFromPrefix<T>(s: seq<T>, t: seq<T>, x: T)
    requires x in s
    ensures Remove(s + t, x) == (Remove(s, x).0 + t, true)
  {
    assert (s + t)[0] == s[0] && (s + t)[1..] == s[1..] + t;
    if s[0] != x {
      RemoveFromPrefix(s[1..], t, x);
      assert Remove(s, x).0 == [s[0]] + Remove(s[1..], x).0;
      assert Remove(s + t, x).0 == [s[0]] + Remove(s[1..] + t, x).0;
      assert Remove(s + t, x).1;
      assert Remove(s + t, x).0 == Remove(s, x).0 + t;
    }
  }

  lemma {:induction false} RemoveAppendedNew<T>(s: seq<T>, x: T)
    requires x !in s
    ensures Remove(s + [x], x) == (s, true)
  {
    if |s| > 0 {
      assert (s + [x])[0] == s[0] && (s + [x])[1..] == s[1..] + [x];
      RemoveAppendedNew(s[1..], x);
      assert Remove(s + [x], x).1;
      assert Remove(s + [x], x).0 == [s[0]] + s[1..];
      assert [s[0]] + s[1..] == s;
    } else {
      assert s + [x] == [x];
    }
  }

  /** Adding an item and removing it again gives back the original list when
      the item was not already present; when it was, the earlier copy is the
      one removed and the new one stays at the end. */
  lemma AddThenRemove<T>(s: seq<T>, x: T)
    ensures x !in s ==> Remove(Add(s, x), x) == (s, true)
    ensures x in s ==> Remove(Add(s, x), x) == (Add(Remove(s, x).0, x), true)
  {
    if x in s {
      RemoveFromPrefix(s, [x], x);
    } else {
      RemoveAppendedNew(s, x);
    }
  }

  /** `Count` after each operation. */
  lemma CountAfterOperations<T>(s: seq<T>, x: T)
    ensures |Add(s, x)| == |s| + 1
    ensures |Clear(s)| == 0
    ensures !Contains(Clear(s), x)
    ensures Contains(Add(s, x), x)
  {
    assert Add(s, x)[|s|] == x;
  }

  /** `GameObjectCollection.Get(name)`: the first template whose `ObjectName`
      equals `name`; a template without a name never matches. */
  method GetGameObject(s: seq<GameObject>, name: string) returns (r: Result<GameObject>)
    ensures r.Ok? <==> exists i :: 0 <= i < |s| && s[i].objectName == Some(name)
    ensures r.Ok? ==> exists i :: 0 <= i < |s| && s[i] == r.value && s[i].objectName == Some(name)
                                && forall j :: 0 <= j < i ==> s[j].objectName != Some(name)
    ensures r.Err? ==> r.error == EngineException("GameObject with name '" + name + "' not found in collection.", "GameObjectCollection.Get()")
  {
    var k := 0;
    while k < |s|
      invariant 0 <= k <= |s|
      invariant forall j :: 0 <= j < k ==> s[j].objectName != Some(name)
    {
      if s[k].objectName == Some(name) {
        return Ok(s[k]);
      }
      k := k + 1;
    }
    return Err(EngineException("GameObject with name '" + name + "' not found in collection.", "GameObjectCollection.Get()"));
  }

  /** `InstanceCollection.Get(Guid)`: the first instance with that hash. */
  method GetInstanceByHash(s: seq<Instance>, hash: Guid) returns (r: Result<Instance>)
    ensures r.Ok? <==> exists i :: 0 <= i < |s| && s[i].hash == hash
    ensures r.Ok? ==> r.value.hash == hash
    ensures r.Ok? ==> exists i :: 0 <= i < |s| && s[i] == r.value
                                && forall j :: 0 <= j < i ==> s[j].hash != hash
    ensures r.Err? ==> r.error == EngineException("Instance with hash '" + GuidText(hash) + "' not found in collection.", "InstanceCollection.Get()")
  {
    var k := 0;
    while k < |s|
      invariant 0 <= k <= |s|
      invariant forall j :: 0 <= j < k ==> s[j].hash != hash
    {
      if s[k].hash == hash {
        return Ok(s[k]);
      }
      k := k + 1;
    }
    return Err(EngineException("Instance with hash '" + GuidText(hash) + "' not found in collection.", "InstanceCollection.Get()"));
  }

  /** The test `InstanceCollection.Get(name)` applies to one instance: the
      `ObjectName` of its `Reference` compared with `name`. A failing
      `Reference` throws out of the lookup. `Reference` is `dynamic`, so
      reading `ObjectName` from a null reference fails in the run-time
      binder. */
  function NameProbe(inst: Instance, name: string): (r: Result<bool>)
    ensures r == Ok(true) <==> Reference(inst).Ok? && inst.baseRef.Some? && inst.baseRef.value.objectName == Some(name)
    ensures r.Err? <==> Reference(inst).Err? || inst.baseRef.None?
    ensures Reference(inst).Err? ==> r == Err(Reference(inst).error)
    ensures Reference(inst).Ok? && inst.baseRef.None? ==> r == Err(RuntimeBinder)
  {
    match Reference(inst)
    case Err(e) => Err(e)
    case Ok(None) => Err(RuntimeBinder)
    case Ok(Some(go)) => Ok(go.objectName == Some(name))
  }

  /** `InstanceCollection.Get(name)`: scans in order and stops at the first
      instance whose probe matches or throws. */
  method GetInstanceByName(s: seq<Instance>, name: string) returns (r: Result<Instance>)
    ensures r.Ok? ==> exists i :: 0 <= i < |s| && s[i] == r.value && NameProbe(s[i], name) == Ok(true)
                                && forall j :: 0 <= j < i ==> NameProbe(s[j], name) == Ok(false)
    ensures r.Err? && !r.error.EngineException? ==>
              exists i :: 0 <= i < |s| && NameProbe(s[i], name) == Err(r.error)
                       && forall j :: 0 <= j < i ==> NameProbe(s[j], name) == Ok(false)
    ensures (r.Err? && r.error.EngineException?) <==> forall j :: 0 <= j < |s| ==> NameProbe(s[j], name) == Ok(false)
  {
    var k := 0;
    while k < |s|
      invariant 0 <= k <= |s|
      invariant forall j :: 0 <= j < k ==> NameProbe(s[j], name) == Ok(false)
    {
      var probe := NameProbe(s[k], name);
      if probe.Err? {
        ReferenceNeverEngineError(s[k], name);
        return Err(probe.error);
      }
      if probe.value {
        return Ok(s[k]);
      }
      k := k + 1;
    }
    return Err(EngineException("Instance of GameObject '" + name + "' not found in collection.", "InstanceCollection.Get()"));
  }

  lemma ReferenceNeverEngineError(inst: Instance, name: string)
    ensures NameProbe(inst, name).Err? ==> !NameProbe(inst, name).error.EngineException?
  {
  }

  /** An instance created from a template whose `Type` property is unset can
      never be found by name: the lookup throws on it. */
  lemma UntypedInstancesBlockNameLookup(go: GameObject, hash: Guid, name: string)
    requires go.typeTag.None? && CreateInstance(go, hash).Ok?
    ensures NameProbe(CreateInstance(go, hash).value, name) == Err(ArgumentNull)
  {
  }

  /** `ResourceCollection.Contains(string)`. */
  function ContainsName(s: seq<Resource>, name: string): (b: bool)
    ensures b <==> exists i :: 0 <= i < |s| && s[i].resourceName == name
  {
    if |s| == 0 then false else s[0].resourceName == name || ContainsName(s[1..], name)
  }

  /** `ResourceCollection.Get(name)`: the first resource with that name. */
  function GetResource(s: seq<Resource>, name: string): (r: Result<Resource>)
    ensures r.Ok? <==> ContainsName(s, name)
    ensures r.Ok? ==> exists i :: 0 <= i < |s| && s[i] == r.value && s[i].resourceName == name
                                && forall j :: 0 <= j < i ==> s[j].resourceName != name
    ensures r.Err? ==> r.error == EngineException("Resource with name '" + name + "' not found in collection.", "ResourceCollection.Get()")
  {
    if |s| == 0 then Err(EngineException("Resource with name '" + name + "' not found in collection.", "ResourceCollection.Get()"))
    else if s[0].resourceName == name then Ok(s[0])
    else
      var r := GetResource(s[1..], name);
      if r.Ok? then
        assert forall j :: 1 <= j < |s| ==> s[j] == s[1..][j - 1];
        r
      else r
  }

  /** A resource just added can be found by name, and a name lookup finds the
      same resource it found before unless the earlier lookup failed. */
  lemma GetResourceAfterAdd(s: seq<Resource>, x: Resource)
    ensures ContainsName(Add(s, x), x.resourceName)
    ensures ContainsName(s, x.resourceName) ==> GetResource(Add(s, x), x.resourceName) == GetResource(s, x.resourceName)
    ensures !ContainsName(s, x.resourceName) ==> GetResource(Add(s, x), x.resourceName) == Ok(x)
  {
    assert Add(s, x)[|s|] == x;
    GetResourceOfPrefix(s, [x], x.resourceName);
  }

  lemma {:induction false} GetResourceOfPrefix(s: seq<Resource>, t: seq<Resource>, name: string)
    ensures ContainsName(s, name) ==> GetResource(s + t, name) == GetResource(s, name)
    ensures !ContainsName(s, name) ==> GetResource(s + t, name) == GetResource(t, name)
  {
    if |s| > 0 {
      assert (s + t)[1..] == s[1..] + t;
      GetResourceOfPrefix(s[1..], t, name);
    } else {
      assert s + t == t;
    }
  }
}

=== FILE: collision.dfy ===
/** Collision shapes: a box with four bounds or a circle with a radius. Each
    shape answers every accessor of the common interface; the accessors that
    do not apply to it read 0 and ignore assignments.
 */
module Collision {
  import opened Structs

  datatype CollisionType = Box | Circle

  /** A `CollisionBox` keeps its up/down/right/left bounds; a `CollisionCircle`
      keeps its radius. */
  datatype Shape =
    | BoxShape(uBound: Int32, dBound: Int32, rBound: Int32, lBound: Int32)
    | CircleShape(radius: Int32)

  /** `new CollisionBox()` and `new CollisionCircle()`: every stored field is 0. */
  const NewBox: Shape := BoxShape(0, 0, 0, 0)
  const NewCircle: Shape := CircleShape(0)

  function Type(s: Shape): (t: CollisionType)
    ensures t == Box <==> s.BoxShape?
    ensures t == Circle <==> s.CircleShape?
  {
    match s
    case BoxShape(_, _, _, _) => Box
    case CircleShape(_) => Circle
  }

  function UBound(s: Shape): (v: Int32)
    ensures s.CircleShape? ==> v == 0
  {
    if s.BoxShape? then s.uBound else 0
  }

  function DBound(s: Shape): (v: Int32)
    ensures s.CircleShape? ==> v == 0
  {
    if s.BoxShape? then s.dBound else 0
  }

  function RBound(s: Shape): (v: Int32)
    ensures s.CircleShape? ==> v == 0
  {
    if s.BoxShape? then s.rBound else 0
  }

  function LBound(s: Shape): (v: Int32)
    ensures s.CircleShape? ==> v == 0
  {
    if s.BoxShape? then s.lBound else 0
  }

  function Radius(s: Shape): (v: Int32)
    ensures s.BoxShape? ==> v == 0
  {
    if s.CircleShape? then s.radius else 0
  }

  /** `Diameter` is twice the radius, computed in unchecked 32-bit arithmetic:
      exact for radii in [-2^30, 2^30), and always 0 for a box. */
  function Diameter(s: Shape): (v: Int32)
    ensures s.BoxShape? ==> v == 0
    ensures -0x4000_0000 <= Radius(s) < 0x4000_0000 ==> v == 2 * Radius(s)
    ensures (v - 2 * Radius(s)) % TWO_POW_32 == 0
  {
    Wrap32(Radius(s) * 2)
  }

  /** The setters. A circle ignores bound assignments and a box ignores radius
      assignments. */
  function SetUBound(s: Shape, v: Int32): (r: Shape)
    ensures s.BoxShape? ==> UBound(r) == v && DBound(r) == DBound(s) && RBound(r) == RBound(s) && LBound(r) == LBound(s)
    ensures s.CircleShape? ==> r == s
    ensures Type(r) == Type(s)
  {
    if s.BoxShape? then s.(uBound := v) else s
  }

  function SetDBound(s: Shape, v: Int32): (r: Shape)
    ensures s.BoxShape? ==> DBound(r) == v && UBound(r) == UBound(s) && RBound(r) == RBound(s) && LBound(r) == LBound(s)
    ensures s.CircleShape? ==> r == s
    ensures Type(r) == Type(s)
  {
    if s.BoxShape? then s.(dBound := v) else s
  }

  function SetRBound(s: Shape, v: Int32): (r: Shape)
    ensures s.BoxShape? ==> RBound(r) == v && UBound(r) == UBound(s) && DBound(r) == DBound(s) && LBound(r) == LBound(s)
    ensures s.CircleShape? ==> r == s
    ensures Type(r) == Type(s)
  {
    if s.BoxShape? then s.(rBound := v) else s
  }

  function SetLBound(s: Shape, v: Int32): (r: Shape)
    ensures s.BoxShape? ==> LBound(r) == v && UBound(r) == UBound(s) && DBound(r) == DBound(s) && RBound(r) == RBound(s)
    ensures s.CircleShape? ==> r == s
    ensures Type(r) == Type(s)
  {
    if s.BoxShape? then s.(lBound := v) else s
  }

  function SetRadius(s: Shape, v: Int32): (r: Shape)
    ensures s.CircleShape? ==> Radius(r) == v
    ensures s.BoxShape? ==> r == s
    ensures Type(r) == Type(s)
  {
    if s.CircleShape? then s.(radius := v) else s
  }

  /** Whatever is assigned to a box's radius, its radius and diameter read 0;
      whatever is assigned to a circle's bounds, they read 0. */
  lemma IgnoredAssignments(s: Shape, v: Int32)
    ensures s.BoxShape? ==> Radius(SetRadius(s, v)) == 0 && Diameter(SetRadius(s, v)) == 0
    ensures s.CircleShape? ==> UBound(SetUBound(s, v)) == 0 && DBound(SetDBound(s, v)) == 0
    ensures s.CircleShape? ==> RBound(SetRBound(s, v)) == 0 && LBound(SetLBound(s, v)) == 0
  {
  }
}

=== FILE: debugging_server.dfy ===
/** The debugging server's byte-level protocol and its set-up guards: the
    client reply decoder, the server-information packet (as the code builds
    it, and the layout its header comment describes), the block insertion
    helper, and the constructor / `Initialize` / `Start` / `Stop` state.
    Sockets, the listener thread and its timeouts are outside the model.
 */
module DebuggingServer {
  import opened Errors
  import opened Structs

  type Bytes = seq<Byte>

  /** A C# `ushort`. */
  type UShort = x: int | 0 <= x < 0x1_0000

  /** A UTF-16 code unit, the element of a C# `string`. */
  type CodeUnit = x: int | 0 <= x < 0x1_0000

  /** A C# string: its `Length` is the number of UTF-16 code units. */
  type CsString = seq<CodeUnit>

  // ---------------------------------------------------------------------
  // Little-endian integers, as `BitConverter` lays them out on x86/x64.
  // ---------------------------------------------------------------------

  /** `BitConverter.GetBytes(ushort)`. */
  function UShortBytes(v: UShort): (r: Bytes)
    ensures |r| == 2 && r[0] as int + 256 * (r[1] as int) == v
  {
    [v % 256, v / 256]
  }

  /** `BitConverter.GetBytes(int)`: the two's-complement bytes, low first. */
  function Int32Bytes(v: Int32): (r: Bytes)
    ensures |r| == 4
  {
    var u := if v < 0 then v + TWO_POW_32 else v;
    [u % 256, u / 256 % 256, u / 0x1_0000 % 256, u / 0x100_0000]
  }

  /** `BitConverter.ToInt32`: four bytes, low first, read as a signed value. */
  function Int32Of(b: Bytes): (v: Int32)
    requires |b| == 4
  {
    var u: int := b[0] as int + 256 * (b[1] as int) + 0x1_0000 * (b[2] as int) + 0x100_0000 * (b[3] as int);
    if u > INT32_MAX then u - TWO_POW_32 else u
  }

  /** The unsigned reading of four bytes recovers the value they were cut
      from. */
  lemma UnsignedBytesRoundTrip(u: int)
    requires 0 <= u < TWO_POW_32
    ensures var b := [u % 256, u / 256 % 256, u / 0x1_0000 % 256, u / 0x100_0000];
            b[0] as int + 256 * (b[1] as int) + 0x1_0000 * (b[2] as int) + 0x100_0000 * (b[3] as int) == u
  {
    var q1 := u / 256;
    var q2 := q1 / 256;
    assert u / 0x1_0000 == q2;
    assert u / 0x100_0000 == q2 / 256;
    assert u == u % 256 + 256 * q1;
    assert q1 == q1 % 256 + 256 * q2;
    assert q2 == q2 % 256 + 256 * (q2 / 256);
  }

  /** Reading back what `GetBytes(int)` wrote gives the same `int`. */
  lemma Int32RoundTrip(v: Int32)
    ensures Int32Of(Int32Bytes(v)) == v
  {
    var u := if v < 0 then v + TWO_POW_32 else v;
    UnsignedBytesRoundTrip(u);
  }

  /** Writing back four bytes read as an `int` gives the same bytes. */
  lemma Int32BytesRoundTrip(b: Bytes)
    requires |b| == 4
    ensures Int32Bytes(Int32Of(b)) == b
  {
    var u: int := b[0] as int + 256 * (b[1] as int) + 0x1_0000 * (b[2] as int) + 0x100_0000 * (b[3] as int);
    assert u % 256 == b[0] && u / 256 == b[1] as int + 256 * (b[2] as int) + 0x1_0000 * (b[3] as int);
    assert u / 256 % 256 == b[1] && u / 0x1_0000 == u / 256 / 256;
    assert u / 256 / 256 == b[2] as int + 256 * (b[3] as int);
    assert u / 0x1_0000 % 256 == b[2] && u / 0x100_0000 == u / 0x1_0000 / 256;
  }

  // ---------------------------------------------------------------------
  // The client reply.
  // ---------------------------------------------------------------------

  /** `ClientResponse`: the message type, the version and the user name,
      kept as the UTF-8 bytes it is decoded from. */
  datatype ClientResponse = ClientResponse(messageType: Byte, versionId: UShort, user: Bytes)

  /** The `ClientResponse(byte[])` constructor. Fewer than five bytes throw;
      otherwise the user name is the `data[3]` bytes from offset 4, and
      `Encoding.GetString` throws when they run past the end. */
  function DecodeResponse(data: Bytes): (r: Result<ClientResponse>)
    ensures |data| < 5 ==> r == Err(EngineException("Insufficient packet data.", "ClientRepsonse()"))
    ensures |data| >= 5 ==> (r.Ok? <==> 4 + data[3] <= |data|)
    ensures |data| >= 5 && r.Err? ==> r.error.ArgumentOutOfRange?
    ensures r.Ok? ==> r.value.messageType == data[0] && r.value.versionId == data[1] as int + 256 * (data[2] as int)
                      && |r.value.user| == data[3] && r.value.user == data[4..4 + |r.value.user|]
  {
    if |data| < 5 then Err(EngineException("Insufficient packet data.", "ClientRepsonse()"))
    else if 4 + data[3] > |data| then Err(ArgumentOutOfRange("Index and count must refer to a location within the buffer."))
    else Ok(ClientResponse(data[0], data[1] as int + 256 * (data[2] as int), data[4..4 + data[3]]))
  }

  /** The bytes a client sends for a reply: type, version low byte first,
      the name's length and the name. */
  function EncodeResponse(resp: ClientResponse): (r: Bytes)
    requires |resp.user| <= 255
    ensures |r| == 4 + |resp.user|
  {
    [resp.messageType] + UShortBytes(resp.versionId) + [|resp.user|] + resp.user
  }

  /** A reply decodes to what was encoded, whatever follows it in the
      buffer, once the buffer holds at least five bytes. */
  lemma ResponseRoundTrip(resp: ClientResponse, padding: Bytes)
    requires |resp.user| <= 255
    requires 4 + |resp.user| + |padding| >= 5
    ensures DecodeResponse(EncodeResponse(resp) + padding) == Ok(resp)
  {
    var data := EncodeResponse(resp) + padding;
    assert data[4..4 + |resp.user|] == resp.user;
  }

  /** Every decoded reply is the encoding of what it decoded to, followed by
      the rest of the buffer. */
  lemma DecodedResponseIsEncoded(data: Bytes)
    requires DecodeResponse(data).Ok?
    ensures var resp := DecodeResponse(data).value;
            |resp.user| <= 255 && data == EncodeResponse(resp) + data[4 + |resp.user|..]
  {
    var resp := DecodeResponse(data).value;
    assert EncodeResponse(resp) == data[..4 + |resp.user|];
  }

  /** The listener always reads into a 260-byte buffer, so its replies never
      fail to decode: 4 + 255 bytes always fit. */
  lemma ListenerBufferAlwaysDecodes(buffer: Bytes)
    requires |buffer| == 260
    ensures DecodeResponse(buffer).Ok?
  {
  }

  // ---------------------------------------------------------------------
  // UTF-8 and string truncation.
  // ---------------------------------------------------------------------

  predicate IsHighSurrogate(u: CodeUnit) { 0xD800 <= u <= 0xDBFF }
  predicate IsLowSurrogate(u: CodeUnit) { 0xDC00 <= u <= 0xDFFF }
  predicate IsSurrogate(u: CodeUnit) { 0xD800 <= u <= 0xDFFF }

  predicate IsAscii(s: CsString) {
    forall i :: 0 <= i < |s| ==> s[i] < 0x80
  }

  /** `Encoding.UTF8.GetBytes`: one to three bytes per code unit, four per
      surrogate pair, and the three-byte replacement character U+FFFD for a
      lone surrogate. */
  function Utf8Encode(s: CsString): (r: Bytes)
    ensures |s| <= |r| <= 3 * |s|
    ensures IsAscii(s) ==> |r| == |s| && forall i :: 0 <= i < |s| ==> r[i] == s[i]
    decreases |s|
  {
    if |s| == 0 then []
    else
      var u := s[0];
      if u < 0x80 then [u] + Utf8Encode(s[1..])
      else if u < 0x800 then [0xC0 + u / 64, 0x80 + u % 64] + Utf8Encode(s[1..])
      else if IsHighSurrogate(u) && |s| >= 2 && IsLowSurrogate(s[1]) then
        var cp: int := 0x1_0000 + (u - 0xD800) * 1024 + (s[1] - 0xDC00);
        [0xF0 + cp / 0x4_0000, 0x80 + cp / 0x1000 % 64, 0x80 + cp / 64 % 64, 0x80 + cp % 64] + Utf8Encode(s[2..])
      else if IsSurrogate(u) then [0xEF, 0xBF, 0xBD] + Utf8Encode(s[1..])
      else [0xE0 + u / 0x1000, 0x80 + u / 64 % 64, 0x80 + u % 64] + Utf8Encode(s[1..])
  }

  /** The first 255 elements: how `_packInfo` cuts the title and company (in
      code units), and what fits behind a one-byte length (in bytes). */
  function Truncate255<T>(s: seq<T>): (r: seq<T>)
    ensures |r| <= 255 && |r| <= |s| && r == s[..|r|]
    ensures |s| <= 255 ==> r == s
  {
    if |s| > 255 then s[..255] else s
  }

  // ---------------------------------------------------------------------
  // `_packInfo` as written.
  // ---------------------------------------------------------------------

  /** The message of the `ArgumentException` a `BlockCopy` past an array's
      end throws. */
  const BlockCopyBoundsMessage: string :=
    "Offset and length were out of bounds for the array or count is greater than the number of elements from index to the end of the source collection."

  /** `Buffer.BlockCopy(src, srcOffset, dst, dstOffset, count)`: the new
      contents of `dst`. A negative argument throws `ArgumentOutOfRange`
      naming the first of `srcOffset`, `dstOffset` and `count` that is
      negative; a range past the end of either array throws
      `ArgumentException`. */
  function BlockCopy(src: Bytes, srcOffset: int, dst: Bytes, dstOffset: int, count: int): (r: Result<Bytes>)
    ensures r.Ok? <==> 0 <= srcOffset && 0 <= dstOffset && 0 <= count
                       && srcOffset + count <= |src| && dstOffset + count <= |dst|
    ensures r.Ok? ==> |r.value| == |dst|
    ensures r.Ok? ==> forall i :: 0 <= i < |dst| ==>
                        r.value[i] == if dstOffset <= i < dstOffset + count then src[srcOffset + i - dstOffset] else dst[i]
    ensures r.Err? ==> r.error.ArgumentOutOfRange? || r.error.ArgumentException?
    ensures r.Err? && r.error.ArgumentOutOfRange? ==>
              r.error.detail == (if srcOffset < 0 then "srcOffset" else if dstOffset < 0 then "dstOffset" else "count")
    ensures r.Err? && r.error.ArgumentException? ==> 0 <= srcOffset && 0 <= dstOffset && 0 <= count
  {
    if srcOffset < 0 then Err(ArgumentOutOfRange("srcOffset"))
    else if dstOffset < 0 then Err(ArgumentOutOfRange("dstOffset"))
    else if count < 0 then Err(ArgumentOutOfRange("count"))
    else if srcOffset + count > |src| || dstOffset + count > |dst| then
      Err(ArgumentException(BlockCopyBoundsMessage))
    else
      Ok(seq(|dst|, i requires 0 <= i < |dst| =>
                   if dstOffset <= i < dstOffset + count then src[srcOffset + i - dstOffset] else dst[i]))
  }

  /** `count` zero bytes: a fresh `byte[]`. */
  function Zeros(count: nat): (r: Bytes)
    ensures |r| == count && forall i :: 0 <= i < count ==> r[i] == 0
  {
    seq(count, _ => 0)
  }

  /** `_packInfo` exactly as written: every `Buffer.BlockCopy` has the packet
      as its source and a temporary array as its destination, so the
      temporaries are filled and thrown away, and the packet keeps only the
      200 written into its first byte. The copies still check their ranges
      against the packet, whose length counts UTF-16 code units while the
      copies count UTF-8 bytes. `vN` is widened to `short` by overload
      resolution, hence two bytes. */
  function PackInfoAsWritten(vM: UShort, vN: Byte, title: CsString, comp: CsString,
                             engineMajor: Int32, engineMinor: Int32): (r: Result<Bytes>)
    ensures var t, c := Truncate255(title), Truncate255(comp);
            r.Ok? <==> |Utf8Encode(t)| + |Utf8Encode(c)| <= |t| + |c| + 3
    ensures r.Ok? ==> |r.value| == 14 + |Truncate255(title)| + |Truncate255(comp)|
                      && r.value[0] == 200
                      && forall i :: 1 <= i < |r.value| ==> r.value[i] == 0
    ensures r.Err? ==> r.error.ArgumentException?
  {
    var t := Truncate255(title);
    var c := Truncate255(comp);
    var data := [200] + Zeros(13 + |t| + |c|);
    var tE := Utf8Encode(t);
    var cE := Utf8Encode(c);
    // The version and title-length copies read the first five bytes,
    // which every packet has.
    assert BlockCopy(data, 1, UShortBytes(vM), 0, 2).Ok?;
    assert BlockCopy(data, 3, [vN, 0], 0, 1).Ok?;
    assert BlockCopy(data, 4, Int32Bytes(|t|), 0, 1).Ok?;
    var _ :- BlockCopy(data, 5, tE, 0, |tE|);
    var _ :- BlockCopy(data, 5 + |tE|, Int32Bytes(|c|), 0, 1);
    var _ :- BlockCopy(data, 6 + |tE|, cE, 0, |cE|);
    var _ :- BlockCopy(data, 6 + |tE| + |cE|, Int32Bytes(engineMajor), 0, 4);
    var _ :- BlockCopy(data, 7 + |tE| + |cE|, Int32Bytes(engineMinor), 0, 4);
    assert forall i :: 1 <= i < |data| ==> data[i] == Zeros(13 + |t| + |c|)[i - 1];
    Ok(data)
  }

  /** For ASCII title and company the packet is built without error, and it
      says nothing: after the 200 every byte is zero, whatever the versions,
      title and company. */
  lemma PackInfoAsWrittenIsBlank(vM: UShort, vN: Byte, title: CsString, comp: CsString,
                                 engineMajor: Int32, engineMinor: Int32)
    requires IsAscii(title) && IsAscii(comp)
    ensures var r := PackInfoAsWritten(vM, vN, title, comp, engineMajor, engineMinor);
            r.Ok? && r.value == [200] + Zeros(13 + |Truncate255(title)| + |Truncate255(comp)|)
  {
    var t, c := Truncate255(title), Truncate255(comp);
    assert IsAscii(t) && IsAscii(c);
    var r := PackInfoAsWritten(vM, vN, title, comp, engineMajor, engineMinor);
    assert r.Ok?;
    assert r.value == [200] + Zeros(13 + |t| + |c|);
  }

  /** A title of four 'é' (U+00E9, two UTF-8 bytes each) makes the last
      `BlockCopy` read past the packet, so the method throws. */
  lemma PackInfoAsWrittenRejectsAccents()
    ensures PackInfoAsWritten(1, 0, [0xE9, 0xE9, 0xE9, 0xE9], [0x6E, 0x2F, 0x61], 0, 0).Err?
  {
    var t: CsString := [0xE9, 0xE9, 0xE9, 0xE9];
    var s3: CsString := [0xE9];
    var s2: CsString := [0xE9, 0xE9];
    var s1: CsString := [0xE9, 0xE9, 0xE9];
    assert t[1..] == s1 && s1[1..] == s2 && s2[1..] == s3;
    assert |Utf8Encode(t)| == 8;
  }

  // ---------------------------------------------------------------------
  // `_packInfo` as the header comment lays the packet out.
  // ---------------------------------------------------------------------

  /** The initial connection message: type, `ushort` major, `byte` minor,
      length-prefixed title and company, and the engine's two `int` version
      parts. */
  datatype ServerInfo = ServerInfo(messageType: Byte, major: UShort, minor: Byte,
                                   title: Bytes, company: Bytes,
                                   engineMajor: Int32, engineMinor: Int32)

  /** The message type `200 = OK`. */
  const MessageOk: Byte := 200

  predicate Fits(info: ServerInfo) {
    |info.title| <= 255 && |info.company| <= 255
  }

  /** The bytes of a connection message, in header order. */
  function Layout(info: ServerInfo): (r: Bytes)
    requires Fits(info)
    ensures |r| == 14 + |info.title| + |info.company|
  {
    [info.messageType] + UShortBytes(info.major) + [info.minor]
    + [|info.title|] + info.title + [|info.company|] + info.company
    + Int32Bytes(info.engineMajor) + Int32Bytes(info.engineMinor)
  }

  /** Reads a connection message; `None` when the lengths do not add up. */
  function Unpack(data: Bytes): (r: Option<ServerInfo>)
    ensures r.Some? ==> Fits(r.value) && |data| == 14 + |r.value.title| + |r.value.company|
  {
    if |data| < 6 then None
    else
      var tl: int := data[4];
      if |data| < 6 + tl then None
      else
        var cl: int := data[5 + tl];
        if |data| != 14 + tl + cl then None
        else Some(ServerInfo(data[0], data[1] as int + 256 * (data[2] as int), data[3],
                             data[5..5 + tl], data[6 + tl..6 + tl + cl],
                             Int32Of(data[6 + tl + cl..10 + tl + cl]), Int32Of(data[10 + tl + cl..])))
  }

  /** Every message reads back as what was laid out. */
  lemma UnpackLayout(info: ServerInfo)
    requires Fits(info)
    ensures Unpack(Layout(info)) == Some(info)
  {
    var d := Layout(info);
    var tl, cl := |info.title|, |info.company|;
    assert d[4] == tl && d[5 + tl] == cl;
    assert d[5..5 + tl] == info.title;
    assert d[6 + tl..6 + tl + cl] == info.company;
    assert d[6 + tl + cl..10 + tl + cl] == Int32Bytes(info.engineMajor);
    assert d[10 + tl + cl..] == Int32Bytes(info.engineMinor);
    Int32RoundTrip(info.engineMajor);
    Int32RoundTrip(info.engineMinor);
  }

  /** Every readable message is the layout of what it reads as. */
  lemma LayoutUnpack(data: Bytes)
    requires Unpack(data).Some?
    ensures Layout(Unpack(data).value) == data
  {
    var info := Unpack(data).value;
    var tl, cl := |info.title|, |info.company|;
    var a, b, c, d := 5 + tl, 6 + tl, 6 + tl + cl, 10 + tl + cl;
    Int32BytesRoundTrip(data[c..d]);
    Int32BytesRoundTrip(data[d..]);
    assert UShortBytes(info.major) == data[1..3];
    assert [data[0]] + data[1..3] + [data[3]] + [data[4]] == data[..5];
    assert data[..5] + data[5..a] == data[..a];
    assert data[..a] + [data[a]] == data[..b];
    assert data[..b] + data[b..c] == data[..c];
    assert data[..c] + data[c..d] == data[..d];
    assert data[..d] + data[d..] == data;
  }

  /** `_packInfo` as intended: the packet laid out as the header describes,
      with the UTF-8 bytes of the (255-unit) title and company behind
      length bytes that count those bytes. */
  function PackInfo(vM: UShort, vN: Byte, title: CsString, comp: CsString,
                    engineMajor: Int32, engineMinor: Int32): (r: Bytes)
    ensures Unpack(r) == Some(ServerInfo(MessageOk, vM, vN,
                                         Truncate255(Utf8Encode(Truncate255(title))), Truncate255(Utf8Encode(Truncate255(comp))),
                                         engineMajor, engineMinor))
  {
    var info := ServerInfo(MessageOk, vM, vN,
                           Truncate255(Utf8Encode(Truncate255(title))), Truncate255(Utf8Encode(Truncate255(comp))),
                           engineMajor, engineMinor);
    UnpackLayout(info);
    Layout(info)
  }

  /** For ASCII names of at most 255 characters the packet carries the names
      themselves, byte for byte. */
  lemma PackInfoCarriesAsciiNames(vM: UShort, vN: Byte, title: CsString, comp: CsString,
                                  engineMajor: Int32, engineMinor: Int32)
    requires IsAscii(title) && IsAscii(comp) && |title| <= 255 && |comp| <= 255
    ensures var info := Unpack(PackInfo(vM, vN, title, comp, engineMajor, engineMinor)).value;
            info.major == vM && info.minor == vN
            && |info.title| == |title| && (forall i :: 0 <= i < |title| ==> info.title[i] == title[i])
            && |info.company| == |comp| && (forall i :: 0 <= i < |comp| ==> info.company[i] == comp[i])
  {
  }

  // ---------------------------------------------------------------------
  // `_insert` as written and as intended.
  // ---------------------------------------------------------------------

  /** The copy loop of `_insert`, from `i = index` up to `end`, storing the
      element of `data` at `index - i` into `src[i]`,
      from iteration `i` on. Only the first iteration reads a valid index of
      `data`; the second reads `data[-1]`. */
  function InsertLoop(src: Bytes, data: Bytes, index: int, i: int, end: int): (r: Outcome<Bytes, ()>)
    requires 0 <= index <= i && end <= |src|
    ensures i >= end ==> r == Outcome(src, Ok(()))
    ensures i < end && i > index ==> r == Outcome(src, Err(IndexOutOfRange))
    ensures i < end && i == index && |data| > 0 ==>
              r == Outcome(src[i := data[0]], if i + 1 >= end then Ok(()) else Err(IndexOutOfRange))
    decreases end - i
  {
    if i >= end then Outcome(src, Ok(()))
    else if index - i < 0 || index - i >= |data| then Outcome(src, Err(IndexOutOfRange))
    else InsertLoop(src[i := data[index - i]], data, index, i + 1, end)
  }

  /** `_insert` exactly as written, on `int` arithmetic that wraps. The
      partial write made before the loop throws stays in `src`, which is
      passed by reference. */
  function InsertAsWritten(src: Bytes, data: Bytes, index: Int32): (r: Outcome<Bytes, ()>)
    requires |src| <= INT32_MAX && |data| <= INT32_MAX
    ensures |r.state| == |src|
    ensures index < 0 || Wrap32(index + |data|) >= |src| ==>
              r == Outcome(src, Err(ArgumentOutOfRange("Index is out-of-range.")))
    ensures 0 <= index && index + |data| < |src| ==>
              (|data| == 0 ==> r == Outcome(src, Ok(())))
              && (|data| == 1 ==> r == Outcome(src[index := data[0]], Ok(())))
              && (|data| >= 2 ==> r == Outcome(src[index := data[0]], Err(IndexOutOfRange)))
    ensures 0 <= index && index + |data| > INT32_MAX ==> r.state == src && r.result.Ok?
  {
    var end := Wrap32(index + |data|);
    if index < 0 || end >= |src| then Outcome(src, Err(ArgumentOutOfRange("Index is out-of-range.")))
    else InsertLoop(src, data, index, index, end)
  }

  /** `_insert` as intended: `data` overwrites `src` from `index` on, and a
      block that does not fit throws. */
  function Insert(src: Bytes, data: Bytes, index: int): (r: Result<Bytes>)
    ensures r.Ok? <==> 0 <= index && index + |data| <= |src|
    ensures r.Ok? ==> |r.value| == |src|
                      && r.value[index..index + |data|] == data
                      && r.value[..index] == src[..index]
                      && r.value[index + |data|..] == src[index + |data|..]
    ensures r.Err? ==> r == Err(ArgumentOutOfRange("Index is out-of-range."))
  {
    if 0 <= index && index + |data| <= |src| then
      var r := src[..index] + data + src[index + |data|..];
      assert r[index..index + |data|] == data;
      Ok(r)
    else Err(ArgumentOutOfRange("Index is out-of-range."))
  }

  /** Inserting a block the array already holds changes nothing, and
      inserting twice is inserting once. */
  lemma InsertOwnBlock(src: Bytes, index: nat, n: nat)
    requires index + n <= |src|
    ensures Insert(src, src[index..index + n], index) == Ok(src)
  {
    assert src[..index] + src[index..index + n] + src[index + n..] == src;
  }

  lemma InsertIdempotent(src: Bytes, data: Bytes, index: int)
    requires Insert(src, data, index).Ok?
    ensures Insert(Insert(src, data, index).value, data, index) == Insert(src, data, index)
  {
    var once := Insert(src, data, index).value;
    assert once[..index] + data + once[index + |data|..] == once;
  }

  /** Where a two-byte block fits, the code as written copies one byte and
      throws `IndexOutOfRange`, while the intended insertion succeeds. */
  lemma InsertAsWrittenBreaksOnTwoBytes(src: Bytes, data: Bytes, index: Int32)
    requires |src| <= INT32_MAX && |data| >= 2
    requires 0 <= index && index + |data| < |src|
    ensures InsertAsWritten(src, data, index) == Outcome(src[index := data[0]], Err(IndexOutOfRange))
    ensures Insert(src, data, index).Ok?
  {
  }

  /** A block ending exactly at the end of the array fits, yet `>=` rejects
      it. */
  lemma InsertAsWrittenRejectsExactFit()
    ensures InsertAsWritten([0, 0, 0], [7], 2) == Outcome([0, 0, 0], Err(ArgumentOutOfRange("Index is out-of-range.")))
    ensures Insert([0, 0, 0], [7], 2) == Ok([0, 0, 7])
  {
    assert Wrap32(2 + 1) == 3;
    var r := [0, 0, 0][..2] + [7] + [0, 0, 0][3..];
    assert r == [0, 0, 7];
  }

  /** When `index + data.Length` overflows, the range check passes and the
      loop never runs: the call returns having written nothing. */
  lemma InsertAsWrittenIgnoresOverflow()
    ensures InsertAsWritten([0], [7], INT32_MAX) == Outcome([0], Ok(()))
    ensures Insert([0], [7], INT32_MAX).Err?
  {
    assert Wrap32(INT32_MAX + 1) == INT32_MIN;
  }

  // ---------------------------------------------------------------------
  // Construction and start-up guards.
  // ---------------------------------------------------------------------

  /** The engine the server reports on; only its title is read. */
  datatype GameEngine = GameEngine(title: CsString)

  /** The server's fields: `tcpCreated` stands for `_tcp != null`; `listening`
      is set by the listener thread once it runs. */
  datatype Server = Server(game: GameEngine, port: UShort, tcpCreated: bool, listening: bool,
                           major: UShort, revision: Byte)

  const DefaultPort: UShort := 7892

  /** The constructor: a null engine throws; the server starts with its port,
      no listener, not listening, and protocol version 1.0. */
  function NewServer(game: Option<GameEngine>, port: UShort := DefaultPort): (r: Result<Server>)
    ensures r.Ok? <==> game.Some?
    ensures r.Ok? ==> r.value.game == game.value && r.value.port == port
                      && !r.value.tcpCreated && !r.value.listening
                      && r.value.major == 1 && r.value.revision == 0
    ensures r.Err? ==> r.error == EngineException("Cannot create a debugging session for a null engine instance.", "n/a")
  {
    match game
    case None => Err(EngineException("Cannot create a debugging session for a null engine instance.", "n/a"))
    case Some(g) => Ok(Server(g, port, false, false, 1, 0))
  }

  /** `Initialize`: creates the listener once, on a nonzero port. */
  function Initialize(s: Server): (r: Result<Server>)
    ensures r.Ok? <==> !s.tcpCreated && s.port != 0
    ensures r.Ok? ==> r.value == s.(tcpCreated := true)
    ensures s.tcpCreated ==> r == Err(EngineException("Debugging server is already initialized.", "DebuggingServer.Initialize()"))
    ensures !s.tcpCreated && s.port == 0 ==> r == Err(EngineException("Port 0 cannot be used.", "DebuggingServer.Initialize()"))
  {
    if s.tcpCreated then Err(EngineException("Debugging server is already initialized.", "DebuggingServer.Initialize()"))
    else if s.port == 0 then Err(EngineException("Port 0 cannot be used.", "DebuggingServer.Initialize()"))
    else Ok(s.(tcpCreated := true))
  }

  /** `Start`: whether a listener thread is started. */
  function Start(s: Server): (r: Result<bool>)
    ensures r.Ok? <==> s.tcpCreated
    ensures r.Ok? ==> (r.value <==> !s.listening)
    ensures r.Err? ==> r.error == EngineException("Debugging server not initialized.", "DebuggingServer.Start()")
  {
    if !s.tcpCreated then Err(EngineException("Debugging server not initialized.", "DebuggingServer.Start()"))
    else Ok(!s.listening)
  }

  /** `Stop`: asks the listener to finish. */
  function Stop(s: Server): (r: Server)
    ensures !r.listening && r == s.(listening := false)
  {
    s.(listening := false)
  }

  /** A new server on a nonzero port initializes once; a second
      `Initialize` throws and `Start` then starts a listener. */
  lemma InitializeOnlyOnce(g: GameEngine, port: UShort)
    requires port != 0
    ensures var s := Initialize(NewServer(Some(g), port).value);
            s.Ok? && Initialize(s.value).Err? && Start(s.value) == Ok(true)
  {
  }

  /** Without `Initialize`, `Start` throws. */
  lemma StartNeedsInitialize(g: GameEngine, port: UShort)
    ensures Start(NewServer(Some(g), port).value).Err?
  {
  }
}

=== FILE: errors.dfy ===
/** The outcomes shared by every component of the engine model: the kinds of
    exception the engine code raises, optional values standing for nullable
    references, and results that carry either a value or the exception thrown.
 */
module Errors {

  /** The exceptions raised by the modelled code, by .NET exception class.
      `EngineException` carries its message and its `SourceFile` tag ("n/a"
      when the one-argument constructor is used). `RuntimeBinder` is
      `Microsoft.CSharp.RuntimeBinder.RuntimeBinderException`, raised when a
      member of a `dynamic` null reference is accessed. `ArgumentOutOfRange`
      carries the one string the throwing code hands the exception: for
      `new ArgumentOutOfRangeException(string)` and for `Buffer.BlockCopy`
      that string is the parameter name, not the message, which .NET then
      composes itself. */
  datatype Error =
    | EngineException(message: string, source: string)
    | GeneralException(message: string)
    | ArgumentException(message: string)
    | ArgumentOutOfRange(detail: string)
    | ArgumentNull
    | IndexOutOfRange
    | NullReference
    | RuntimeBinder
    | InvalidCast
    | NotImplemented
    | DivideByZero
    | Overflow

  /** A value that may be absent; `None` stands for a C# null reference. */
  datatype Option<+T> = None | Some(value: T)

  /** Either the value an operation returns or the exception it throws. */
  datatype Result<+T> = Ok(value: T) | Err(error: Error) {

    predicate IsFailure() {
      Err?
    }

    function PropagateFailure<U>(): Result<U>
      requires Err?
    {
      Err(error)
    }

    function Extract(): T
      requires Ok?
    {
      value
    }
  }

  /** The state an operation leaves behind together with its result. Used where
      the source mutates its object before it may throw, so that the mutation
      survives the exception. */
  datatype Outcome<+S, +T> = Outcome(state: S, result: Result<T>)

  predicate IsEngineError<T>(r: Result<T>) {
    r.Err? && r.error.EngineException?
  }
}

=== FILE: game_object.dfy ===
/** Game object templates and their runtime instances: the defaults a
    template hands to each new instance, the validated image index, the
    animation frame counter, and the default per-step angle constraint.
 */
module GameObjects {
  import opened Errors
  import opened Structs
  import opened Resources

  /** A `System.Guid`: 128 bits. The number stands for the one its standard
      text spells in hexadecimal, most significant digit first; the byte order
      a `Guid` keeps in memory plays no part here. */
  type Guid = x: int | 0 <= x < 0x1_0000_0000_0000_0000_0000_0000_0000_0000

  predicate IsHexDigit(c: char) {
    '0' <= c <= '9' || 'a' <= c <= 'f'
  }

  function HexDigitValue(c: char): (d: int)
    requires IsHexDigit(c)
    ensures 0 <= d < 16
  {
    if c <= '9' then c as int - '0' as int else c as int - 'a' as int + 10
  }

  /** The lower-case hex digit of `d`. */
  function HexDigit(d: int): (c: char)
    requires 0 <= d < 16
    ensures IsHexDigit(c) && HexDigitValue(c) == d
  {
    if d < 10 then ('0' as int + d) as char else ('a' as int + d - 10) as char
  }

  predicate AllHex(s: string) {
    forall i :: 0 <= i < |s| ==> IsHexDigit(s[i])
  }

  /** The value of a string of hex digits. */
  function HexValue(s: string): nat
    requires AllHex(s)
  {
    if |s| == 0 then 0 else HexValue(s[..|s| - 1]) * 16 + HexDigitValue(s[|s| - 1])
  }

  function Pow16(n: nat): nat {
    if n == 0 then 1 else 16 * Pow16(n - 1)
  }

  lemma {:induction false} Pow16Sum(a: nat, b: nat)
    ensures Pow16(a + b) == Pow16(a) * Pow16(b)
  {
    if a > 0 {
      Pow16Sum(a - 1, b);
      assert Pow16(a + b) == 16 * Pow16(a - 1 + b);
    }
  }

  /** The last `n` hex digits of `x`, most significant first, zero-padded. */
  function Hex(x: nat, n: nat): (s: string)
    ensures |s| == n && AllHex(s)
  {
    if n == 0 then "" else Hex(x / 16, n - 1) + [HexDigit(x % 16)]
  }

  /** `n` hex digits hold every number below `16^n`. */
  lemma {:induction false} HexRoundTrip(x: nat, n: nat)
    requires x < Pow16(n)
    ensures HexValue(Hex(x, n)) == x
  {
    if n > 0 {
      assert x / 16 < Pow16(n - 1);
      HexRoundTrip(x / 16, n - 1);
      var s := Hex(x, n);
      assert s[..|s| - 1] == Hex(x / 16, n - 1);
    }
  }

  /** `Guid.ToString()`: 32 lower-case hex digits in groups of 8, 4, 4, 4 and
      12, joined by hyphens; the digits spell the `Guid` back. */
  function GuidText(g: Guid): (r: string)
    ensures |r| == 36
    ensures r[8] == '-' && r[13] == '-' && r[18] == '-' && r[23] == '-'
    ensures var digits := r[..8] + r[9..13] + r[14..18] + r[19..23] + r[24..];
            AllHex(digits) && HexValue(digits) == g
  {
    var h := Hex(g, 32);
    assert Pow16(32) == 0x1_0000_0000_0000_0000_0000_0000_0000_0000 by {
      assert Pow16(2) == 0x100;
      Pow16Sum(2, 2);
      Pow16Sum(4, 4);
      Pow16Sum(8, 8);
      Pow16Sum(16, 16);
    }
    HexRoundTrip(g, 32);
    HyphenatedGroups(h);
    Hyphenate(h)
  }

  /** 32 characters in groups of 8, 4, 4, 4 and 12, joined by hyphens. */
  function Hyphenate(h: string): string
    requires |h| == 32
  {
    h[..8] + "-" + h[8..12] + "-" + h[12..16] + "-" + h[16..20] + "-" + h[20..]
  }

  lemma HyphenatedGroups(h: string)
    requires |h| == 32
    ensures var r := Hyphenate(h);
            |r| == 36 && r[8] == '-' && r[13] == '-' && r[18] == '-' && r[23] == '-'
            && r[..8] + r[9..13] + r[14..18] + r[19..23] + r[24..] == h
  {
    var r := Hyphenate(h);
    assert r[..8] == h[..8];
    assert r[9..13] == h[8..12];
    assert r[14..18] == h[12..16];
    assert r[19..23] == h[16..20];
    assert r[24..] == h[20..];
    assert h[..8] + h[8..12] == h[..12];
    assert h[..12] + h[12..16] == h[..16];
    assert h[..16] + h[16..20] == h[..20];
    assert h[..20] + h[20..] == h;
  }

  /** A `System.Type`, by name. */
  type TypeName = string

  /** The physics classes carry no data in this version of the engine. */
  datatype PhysicsAttributes = PhysicsAttributes
  datatype PhysicsVariables = PhysicsVariables

  /** A `GameObject` template. `className` is the runtime class of the
      subclass; `typeTag` is the settable `Type` property (null unless the
      subclass sets it). */
  datatype GameObject = GameObject(
    className: TypeName,
    objectName: Option<string>,
    defaultSprite: Option<Texture>,
    defaultPhysics: PhysicsAttributes,
    isActivated: bool,
    isAnimated: bool,
    defaultImageSpeed: Int32,
    defaultImageIndex: Int32,
    defaultImageAngle: real,
    defaultScaleX: real,
    defaultScaleY: real,
    defaultOffset: Coord,
    typeTag: Option<TypeName>)

  /** The `GameObject` constructor as run for a subclass `className`. */
  function NewGameObject(className: TypeName): (g: GameObject)
    ensures g.defaultScaleX == 1.0 && g.defaultScaleY == 1.0
    ensures g.defaultImageAngle == 0.0 && g.defaultImageIndex == 0 && g.defaultImageSpeed == 0
    ensures g.isAnimated && g.isActivated
    ensures g.defaultSprite.None? && g.objectName.None? && g.typeTag.None?
    ensures g.defaultOffset == Zero && g.className == className
  {
    GameObject(className, None, None, PhysicsAttributes, true, true, 0, 0, 0.0, 1.0, 1.0, Zero, None)
  }

  /** A live `Instance`. `animCounter` is the private frame-speed counter. */
  datatype Instance = Instance(
    hash: Guid,
    baseRef: Option<GameObject>,
    referenceType: Option<TypeName>,
    sprite: Option<Texture>,
    physicsAttributes: Option<PhysicsAttributes>,
    physicsVariables: PhysicsVariables,
    position: Coord,
    imageIndex: Int32,
    imageSpeed: Int32,
    depth: Int32,
    imageAngle: real,
    isActivated: bool,
    isAnimated: bool,
    scaleX: real,
    scaleY: real,
    offset: Coord,
    animCounter: Int32)

  /** The `Instance` constructor; `hash` is the fresh `Guid.NewGuid()`. Every
      property it does not set keeps its .NET default. */
  function NewInstance(hash: Guid): (i: Instance)
    ensures i.hash == hash
    ensures i.position == Zero && i.depth == 0 && i.imageIndex == 0 && i.animCounter == 0
    ensures i.baseRef.None? && i.sprite.None? && i.referenceType.None?
  {
    Instance(hash, None, None, None, None, PhysicsVariables, Coord(0, 0), 0, 0, 0, 0.0,
             false, false, 0.0, 0.0, Zero, 0)
  }

  /** The rule the `ImageIndex` setter enforces. */
  predicate IndexAccepted(sprite: Option<Texture>, v: int) {
    v >= 0 && (v == 0 || sprite.None? || v < Count(sprite.value))
  }

  /** The `ImageIndex` setter: a negative value, or a nonzero value at or past
      the sprite's frame count, throws; zero is always accepted. */
  function SetImageIndex(inst: Instance, v: Int32): (r: Result<Instance>)
    ensures r.Ok? <==> IndexAccepted(inst.sprite, v)
    ensures r.Ok? ==> r.value == inst.(imageIndex := v)
    ensures r.Err? ==> r.error.EngineException?
  {
    if v < 0 then Err(EngineException("ImageIndex cannot be lesser than 0.", "n/a"))
    else if v != 0 && inst.sprite.Some? && v >= Count(inst.sprite.value) then
      Err(EngineException("ImageIndex is out-of-range.", "n/a"))
    else Ok(inst.(imageIndex := v))
  }

  /** The frame invariant: with a sprite of at least one frame set, the image
      index names one of its frames. */
  predicate FrameInvariant(inst: Instance) {
    inst.sprite.Some? && 0 <= inst.imageIndex < Count(inst.sprite.value)
  }

  /** A successful assignment through the setter keeps the frame invariant for
      every sprite that has a frame; an empty sprite still accepts index 0. */
  lemma SetImageIndexKeepsFrame(inst: Instance, v: Int32)
    requires inst.sprite.Some?
    ensures Count(inst.sprite.value) >= 1 && SetImageIndex(inst, v).Ok? ==> FrameInvariant(SetImageIndex(inst, v).value)
    ensures Count(inst.sprite.value) == 0 ==> (SetImageIndex(inst, v).Ok? <==> v == 0)
  {
  }

  /** `GameObject.CreateInstance`: a fresh instance that refers back to the
      template and copies its defaults. `ImageIndex` is assigned through the
      setter after `Sprite`, so an index invalid for the default sprite makes
      the whole call throw. The `out Guid` equals the new instance's hash. */
  function CreateInstance(go: GameObject, hash: Guid): (r: Result<Instance>)
    ensures r.Ok? <==> IndexAccepted(go.defaultSprite, go.defaultImageIndex)
    ensures r.Err? ==> r.error.EngineException?
    ensures r.Ok? ==> var i := r.value;
      && i.hash == hash && i.baseRef == Some(go) && i.referenceType == go.typeTag
      && i.sprite == go.defaultSprite && i.imageIndex == go.defaultImageIndex
      && i.imageSpeed == go.defaultImageSpeed && i.imageAngle == go.defaultImageAngle
      && i.isActivated == go.isActivated && i.isAnimated == go.isAnimated
      && i.scaleX == go.defaultScaleX && i.scaleY == go.defaultScaleY
      && i.offset == go.defaultOffset && i.physicsAttributes == Some(go.defaultPhysics)
      && i.position == Zero && i.depth == 0 && i.animCounter == 0
  {
    var blank := NewInstance(hash).(baseRef := Some(go), sprite := go.defaultSprite);
    var indexed :- SetImageIndex(blank, go.defaultImageIndex);
    Ok(indexed.(imageSpeed := go.defaultImageSpeed,
                imageAngle := go.defaultImageAngle,
                isActivated := go.isActivated,
                isAnimated := go.isAnimated,
                referenceType := go.typeTag,
                scaleX := go.defaultScaleX,
                scaleY := go.defaultScaleY,
                offset := CopyCoord(go.defaultOffset),
                physicsAttributes := Some(go.defaultPhysics)))
  }

  /** A template straight from the constructor always yields an instance, and
      one whose default index is 0 never fails, whatever its sprite. */
  lemma CreateInstanceOfDefaults(className: TypeName, sprite: Option<Texture>, hash: Guid)
    ensures CreateInstance(NewGameObject(className), hash).Ok?
    ensures CreateInstance(NewGameObject(className).(defaultSprite := sprite), hash).Ok?
  {
  }

  /** `Instance.Reference`: `Convert.ChangeType(BaseReference, ReferenceType)`.
      A null type throws; a null reference converts to null, as it does for
      every class type (a `TypeName` always names a class; value types, for
      which a null reference throws `InvalidCastException`, are not
      modelled); a reference whose runtime class is not the requested type
      throws. */
  function Reference(inst: Instance): (r: Result<Option<GameObject>>)
    ensures r.Ok? <==> inst.referenceType.Some? && (inst.baseRef.None? || inst.baseRef.value.className == inst.referenceType.value)
    ensures r.Ok? ==> r.value == inst.baseRef
    ensures inst.referenceType.None? ==> r == Err(ArgumentNull)
  {
    match inst.referenceType
    case None => Err(ArgumentNull)
    case Some(t) =>
      match inst.baseRef
      case None => Ok(None)
      case Some(go) => if go.className == t then Ok(Some(go)) else Err(InvalidCast)
  }

  /** The instances a template creates carry the template's `Type` property,
      which is null unless the subclass sets it, so `Reference` throws for
      them unless it is set to the subclass's own type. */
  lemma ReferenceOfCreatedInstance(go: GameObject, hash: Guid)
    requires CreateInstance(go, hash).Ok?
    ensures Reference(CreateInstance(go, hash).value).Ok? <==> go.typeTag == Some(go.className)
  {
  }

  /** `GameObject.Step`'s default body: one subtraction of 360 when the angle
      is at least 360, then one addition of 360 when it is negative. */
  function NormalizeAngle(a: real): (r: real)
    ensures -360.0 <= a < 720.0 ==> 0.0 <= r < 360.0
    ensures r == a || r == a - 360.0 || r == a + 360.0
    ensures 0.0 <= a < 360.0 ==> r == a
  {
    var once := if a >= 360.0 then a - 360.0 else a;
    if once < 0.0 then once + 360.0 else once
  }

  /** A single adjustment is not enough for angles further out. */
  lemma NormalizeAngleIsOneStep()
    ensures NormalizeAngle(720.0) == 360.0
    ensures NormalizeAngle(-400.0) == -40.0
  {
  }

  /** `GameObject.Step(caller, scene)` as the base class defines it. */
  function Step(inst: Instance): (r: Instance)
    ensures r == inst.(imageAngle := r.imageAngle)
    ensures -360.0 <= inst.imageAngle < 720.0 ==> 0.0 <= r.imageAngle < 360.0
  {
    inst.(imageAngle := NormalizeAngle(inst.imageAngle))
  }

  /** `Instance.AnimationStep`. When the counter has reached the image speed,
      the counter is reset first and the index then advances, wrapping to 0
      after the last frame; reading the frame count of a null sprite throws
      after the reset. Otherwise only the counter moves. */
  function AnimationStep(inst: Instance): (r: Outcome<Instance, ()>)
    ensures inst.animCounter < inst.imageSpeed ==>
              r.result.Ok? && r.state == inst.(animCounter := inst.animCounter + 1)
    ensures inst.animCounter >= inst.imageSpeed && inst.sprite.None? ==>
              r.result == Err(NullReference) && r.state == inst.(animCounter := 0)
    ensures inst.animCounter >= inst.imageSpeed && FrameInvariant(inst) ==>
              r.result.Ok? &&
              r.state == inst.(animCounter := 0, imageIndex := (inst.imageIndex + 1) % Count(inst.sprite.value))
    ensures FrameInvariant(inst) ==> FrameInvariant(r.state)
  {
    if inst.animCounter >= inst.imageSpeed then
      var reset := inst.(animCounter := 0);
      if reset.sprite.None? then Outcome(reset, Err(NullReference))
      else
        match SetImageIndex(reset, NextFrame(reset.imageIndex, Count(reset.sprite.value)))
        case Ok(advanced) => Outcome(advanced, Ok(()))
        case Err(e) => Outcome(reset, Err(e))
    else
      Outcome(inst.(animCounter := inst.animCounter + 1), Ok(()))
  }

  /** The frame after `index`: the next one, or the first after the last. */
  function NextFrame(index: Int32, count: ArrayLength): (r: Int32)
    ensures 0 <= index < count ==> r == (index + 1) % count
  {
    if index >= count - 1 then
      WrapsAtCount(count);
      0
    else
      StaysBelowCount(index + 1, count);
      index + 1
  }

  lemma WrapsAtCount(count: int)
    ensures count > 0 ==> count % count == 0
  {
  }

  lemma StaysBelowCount(x: int, count: int)
    ensures 0 <= x < count ==> x % count == x
  {
  }

  /** `n` successive animation steps, each starting from the state the
      previous one left, whether or not that step threw. */
  function Animate(inst: Instance, n: nat): Instance {
    if n == 0 then inst
    else
      var o := AnimationStep(Animate(inst, n - 1));
      o.state
  }

  /** With the counter at 0 and an image speed of `s >= 0`, the first `s`
      steps only count, and step `s + 1` shows the next frame (wrapping after
      the last) with the counter back at 0. */
  lemma {:induction false} AnimationAdvancesEverySpeedPlusOne(inst: Instance)
    requires FrameInvariant(inst) && inst.animCounter == 0 && inst.imageSpeed >= 0
    ensures Animate(inst, inst.imageSpeed + 1)
            == inst.(imageIndex := (inst.imageIndex + 1) % Count(inst.sprite.value))
  {
    CountingPhase(inst, inst.imageSpeed);
  }

  lemma {:induction false} CountingPhase(inst: Instance, k: nat)
    requires FrameInvariant(inst) && inst.animCounter == 0 && k <= inst.imageSpeed
    ensures Animate(inst, k) == inst.(animCounter := k)
  {
    if k > 0 {
      CountingPhase(inst, k - 1);
    }
  }
}

=== FILE: input.dfy ===
/** The input manager: key and mouse-button state fed from the SDL event
    queue, and the window/engine callbacks that queue raises. The queue is
    given as a sequence of events, oldest first.
 */
module Input {
  import opened Errors
  import opened Structs
  import opened Seqs

  /** An `SDL_Keycode`. */
  type Keycode = int

  /** The SDL mouse button numbers. */
  const BUTTON_LEFT: Byte := 1
  const BUTTON_MIDDLE: Byte := 2
  const BUTTON_RIGHT: Byte := 3

  /** The window sub-events the manager distinguishes; any other one is
      `OtherWindowEvent`. */
  datatype WindowEventId =
    | WindowEventClose
    | WindowEventFocusGained
    | WindowEventFocusLost
    | WindowEventExposed
    | WindowEventShown
    | OtherWindowEvent

  /** The SDL events the manager distinguishes; any other type is
      `OtherEvent`. */
  datatype Event =
    | WindowEvent(windowEvent: WindowEventId)
    | KeyDown(key: Keycode)
    | KeyUp(key: Keycode)
    | MouseButtonDown(button: Byte)
    | MouseButtonUp(button: Byte)
    | RenderDeviceReset
    | OtherEvent

  datatype CallbackType = WindowClose | FocusGained | FocusLost | WindowExposed | WindowShown | RenderDeviceResetCallback

  /** Which of the two C# events a callback is raised on. */
  datatype Channel = WindowChannel | EngineChannel

  datatype Callback = Callback(channel: Channel, kind: CallbackType)

  /** The key dictionary and the three mouse flags. */
  datatype InputState = InputState(keys: map<Keycode, bool>, leftButton: bool, rightButton: bool, middleButton: bool)

  /** The constructor: no key seen, no button down. */
  const NewInputState: InputState := InputState(map[], false, false, false)

  /** `IsDown`: the stored state of the key, or false for a key never seen. */
  function IsDown(st: InputState, key: Keycode): (b: bool)
    ensures key !in st.keys ==> !b
    ensures key in st.keys ==> b == st.keys[key]
  {
    if key in st.keys then st.keys[key] else false
  }

  /** `IsUp`. */
  function IsUp(st: InputState, key: Keycode): (b: bool)
    ensures b <==> !IsDown(st, key)
  {
    !IsDown(st, key)
  }

  /** `IsPressed` and `IsReleased` are not implemented and always throw. */
  function IsPressed(st: InputState, key: Keycode): (r: Result<bool>)
    ensures r == Err(NotImplemented)
  {
    Err(NotImplemented)
  }

  function IsReleased(st: InputState, key: Keycode): (r: Result<bool>)
    ensures r == Err(NotImplemented)
  {
    Err(NotImplemented)
  }

  /** The callback a window sub-event raises, if any. */
  function WindowCallback(id: WindowEventId): Option<CallbackType> {
    match id
    case WindowEventClose => Some(WindowClose)
    case WindowEventFocusGained => Some(FocusGained)
    case WindowEventFocusLost => Some(FocusLost)
    case WindowEventExposed => Some(WindowExposed)
    case WindowEventShown => Some(WindowShown)
    case OtherWindowEvent => None
  }

  /** Whether the `WindowEvent` and `EngineEvent` C# events have handlers:
      `?.Invoke` raises nothing on an event without one. */
  datatype Handlers = Handlers(window: bool, engine: bool)

  /** The result of handling events: the new state and the callbacks raised,
      in order. */
  datatype Polled = Polled(state: InputState, raised: seq<Callback>)

  /** One iteration of the `PollEvent` loop. */
  function ApplyEvent(st: InputState, e: Event, h: Handlers): (r: Polled)
    ensures e.KeyDown? ==> r.state == st.(keys := st.keys[e.key := true]) && r.raised == []
    ensures e.KeyUp? ==> r.state == st.(keys := st.keys[e.key := false]) && r.raised == []
    ensures e.MouseButtonDown? || e.MouseButtonUp? ==> r.raised == [] && r.state.keys == st.keys
    ensures e.WindowEvent? || e.RenderDeviceReset? || e.OtherEvent? ==> r.state == st
    ensures e.WindowEvent? ==> r.raised == if h.window && WindowCallback(e.windowEvent).Some? then [Callback(WindowChannel, WindowCallback(e.windowEvent).value)] else []
    ensures e.RenderDeviceReset? ==> r.raised == if h.engine then [Callback(EngineChannel, RenderDeviceResetCallback)] else []
    ensures e.OtherEvent? ==> r.raised == []
  {
    match e
    case WindowEvent(id) =>
      var kind := WindowCallback(id);
      Polled(st, if h.window && kind.Some? then [Callback(WindowChannel, kind.value)] else [])
    case KeyDown(k) => Polled(st.(keys := st.keys[k := true]), [])
    case KeyUp(k) => Polled(st.(keys := st.keys[k := false]), [])
    case MouseButtonDown(b) =>
      if b == BUTTON_LEFT then Polled(st.(leftButton := true), [])
      else if b == BUTTON_RIGHT then Polled(st.(rightButton := true), [])
      else if b == BUTTON_MIDDLE then Polled(st.(middleButton := true), [])
      else Polled(st, [])
    case MouseButtonUp(b) =>
      if b == BUTTON_LEFT then Polled(st.(leftButton := false), [])
      else if b == BUTTON_RIGHT then Polled(st.(rightButton := false), [])
      else if b == BUTTON_MIDDLE then Polled(st.(middleButton := false), [])
      else Polled(st, [])
    case RenderDeviceReset => Polled(st, if h.engine then [Callback(EngineChannel, RenderDeviceResetCallback)] else [])
    case OtherEvent => Polled(st, [])
  }

  /** The mouse flag a button number drives, if any. */
  function ButtonFlag(st: InputState, b: Byte): Option<bool> {
    if b == BUTTON_LEFT then Some(st.leftButton)
    else if b == BUTTON_RIGHT then Some(st.rightButton)
    else if b == BUTTON_MIDDLE then Some(st.middleButton)
    else None
  }

  /** A mouse event sets exactly the flag of its own button and ignores other
      button numbers. */
  lemma MouseEventSetsOnlyItsFlag(st: InputState, e: Event, h: Handlers, b: Byte)
    requires e.MouseButtonDown? || e.MouseButtonUp?
    ensures b == e.button && ButtonFlag(st, b).Some? ==> ButtonFlag(ApplyEvent(st, e, h).state, b) == Some(e.MouseButtonDown?)
    ensures b != e.button ==> ButtonFlag(ApplyEvent(st, e, h).state, b) == ButtonFlag(st, b)
    ensures ButtonFlag(st, e.button).None? ==> ApplyEvent(st, e, h).state == st
  {
  }

  /** `PollEvent`: the queue is drained in order. Each event raises at most
      one callback, none without handlers, and a key once seen is never
      forgotten. */
  function PollEvent(st: InputState, events: seq<Event>, h: Handlers): (r: Polled)
    ensures |r.raised| <= |events|
    ensures !h.window && !h.engine ==> r.raised == []
    ensures st.keys.Keys <= r.state.keys.Keys
    decreases |events|
  {
    if |events| == 0 then Polled(st, [])
    else
      var last := events[|events| - 1];
      var before := PollEvent(st, events[..|events| - 1], h);
      var step := ApplyEvent(before.state, last, h);
      Polled(step.state, before.raised + step.raised)
  }

  /** Draining a queue in two parts is draining it whole: the second part
      starts from the state the first leaves, and the callbacks follow in
      order. */
  lemma {:induction false} PollEventConcat(st: InputState, a: seq<Event>, b: seq<Event>, h: Handlers)
    ensures var first := PollEvent(st, a, h);
            var second := PollEvent(first.state, b, h);
            PollEvent(st, a + b, h) == Polled(second.state, first.raised + second.raised)
    decreases |b|
  {
    if |b| > 0 {
      var b', e := b[..|b| - 1], b[|b| - 1];
      AppendSplitLast(a, b);
      SplitLast(b);
      PollEventConcat(st, a, b', h);
      PollEventSnoc(st, a + b', e, h);
      var first := PollEvent(st, a, h);
      PollEventSnoc(first.state, b', e, h);
      var mid := PollEvent(first.state, b', h);
      JoinRaised(PollEvent(st, a + b, h), PollEvent(st, a + b', h), PollEvent(first.state, b, h),
                 first, mid, ApplyEvent(mid.state, e, h));
    } else {
      AppendEmpty(a, b);
    }
  }

  lemma JoinRaised(whole: Polled, front: Polled, second: Polled, first: Polled, mid: Polled, step: Polled)
    requires front == Polled(mid.state, first.raised + mid.raised)
    requires whole == Polled(step.state, front.raised + step.raised)
    requires second == Polled(step.state, mid.raised + step.raised)
    ensures whole == Polled(second.state, first.raised + second.raised)
  {
    assert first.raised + mid.raised + step.raised == first.raised + (mid.raised + step.raised);
  }

  /** One more event at the end of the queue is one more `ApplyEvent`. */
  lemma PollEventSnoc(st: InputState, events: seq<Event>, e: Event, h: Handlers)
    ensures var before := PollEvent(st, events, h);
            var step := ApplyEvent(before.state, e, h);
            PollEvent(st, events + [e], h) == Polled(step.state, before.raised + step.raised)
  {
    AppendSplitLast(events, [e]);
  }

  /** The state a key is left in by the last key event for it, if any. */
  function LastKeyEvent(events: seq<Event>, k: Keycode): Option<bool>
    decreases |events|
  {
    if |events| == 0 then None
    else
      var e := events[|events| - 1];
      if (e.KeyDown? || e.KeyUp?) && e.key == k then Some(e.KeyDown?)
      else LastKeyEvent(events[..|events| - 1], k)
  }

  /** After polling, a key is down exactly when its last key event was a
      key-down; a key with no event keeps its previous state. */
  lemma {:induction false} LastKeyEventWins(st: InputState, events: seq<Event>, h: Handlers, k: Keycode)
    ensures LastKeyEvent(events, k).Some? ==> IsDown(PollEvent(st, events, h).state, k) == LastKeyEvent(events, k).value
    ensures LastKeyEvent(events, k).Some? ==> k in PollEvent(st, events, h).state.keys
    ensures LastKeyEvent(events, k).None? ==> IsDown(PollEvent(st, events, h).state, k) == IsDown(st, k)
    decreases |events|
  {
    if |events| > 0 {
      LastKeyEventWins(st, events[..|events| - 1], h, k);
    }
  }

  /** Keys change only through key events: the same queue with every other
      event removed leaves the same key dictionary. */
  function KeyEventsOnly(events: seq<Event>): (r: seq<Event>)
    ensures forall i :: 0 <= i < |r| ==> r[i].KeyDown? || r[i].KeyUp?
    ensures |r| <= |events|
    decreases |events|
  {
    if |events| == 0 then []
    else
      var e := events[|events| - 1];
      var rest := KeyEventsOnly(events[..|events| - 1]);
      if e.KeyDown? || e.KeyUp? then rest + [e] else rest
  }

  lemma {:induction false} OnlyKeyEventsChangeKeys(st: InputState, events: seq<Event>, h: Handlers, st': InputState, h': Handlers)
    requires st'.keys == st.keys
    ensures PollEvent(st, events, h).state.keys == PollEvent(st', KeyEventsOnly(events), h').state.keys
    decreases |events|
  {
    if |events| > 0 {
      var init := events[..|events| - 1];
      OnlyKeyEventsChangeKeys(st, init, h, st', h');
      var e := events[|events| - 1];
      if e.KeyDown? || e.KeyUp? {
        var ks := KeyEventsOnly(events);
        assert ks == KeyEventsOnly(init) + [e];
        assert ks[..|ks| - 1] == KeyEventsOnly(init);
      }
    }
  }

  /** Window and render-device-reset events leave every key and button as it
      was; with both handlers present, each raises exactly one callback. */
  lemma {:induction false} NonInputEventsKeepState(st: InputState, events: seq<Event>, h: Handlers)
    requires forall i :: 0 <= i < |events| ==> events[i].WindowEvent? || events[i].RenderDeviceReset?
    ensures PollEvent(st, events, h).state == st
    ensures |PollEvent(st, events, h).raised| <= |events|
    ensures h.window && h.engine && (forall i :: 0 <= i < |events| ==> !(events[i] == WindowEvent(OtherWindowEvent)))
            ==> |PollEvent(st, events, h).raised| == |events|
    decreases |events|
  {
    if |events| > 0 {
      NonInputEventsKeepState(st, events[..|events| - 1], h);
    }
  }
}

=== FILE: loader.dfy ===
/** The INI reader: each line of the file that matches `(.+)\s?=\s?(.+)`
    becomes one key/value entry, both sides trimmed of spaces and double
    quotes; other lines are logged and skipped. The file is given as its
    lines (`None` when it does not exist).
 */
module Loader {
  import opened Errors
  import opened Seqs

  /** The characters .NET's `\s` matches: the C0 white-space controls, U+0085
      and the Unicode space separators. */
  predicate IsRegexSpace(c: char) {
    c == ' ' || c == '\t' || c == '\n' || c == '\U{B}' || c == '\U{C}' || c == '\r'
    || c == '\U{85}' || c == '\U{A0}' || c == '\U{1680}' || ('\U{2000}' <= c <= '\U{200A}')
    || c == '\U{2028}' || c == '\U{2029}' || c == '\U{202F}' || c == '\U{205F}' || c == '\U{3000}'
  }

  /** The characters `Trim(' ', '"')` removes. */
  predicate IsTrimmed(c: char) {
    c == ' ' || c == '"'
  }

  /** A line as `File.ReadAllLines` yields it: no line break inside. */
  predicate IsLine(line: string) {
    forall i :: 0 <= i < |line| ==> line[i] != '\n' && line[i] != '\r'
  }

  /** The last `=` at or before `q` that has a character before it. */
  function SplitSearch(line: string, q: int): (r: Option<nat>)
    requires q < |line|
    ensures r.Some? ==> 1 <= r.value <= q && line[r.value] == '='
    ensures r.Some? ==> forall j :: r.value < j <= q ==> line[j] != '='
    ensures r.None? ==> forall j :: 1 <= j <= q ==> line[j] != '='
    decreases q
  {
    if q < 1 then None
    else if line[q] == '=' then Some(q)
    else SplitSearch(line, q - 1)
  }

  /** Where the pattern splits a line: the last `=` that has at least one
      character before it and at least one after it. The greedy first group
      runs up to it, and the optional `\s` before `=` never takes a
      character. */
  function LastSplit(line: string): (r: Option<nat>)
    ensures r.Some? ==> 1 <= r.value <= |line| - 2 && line[r.value] == '='
    ensures r.Some? ==> forall j :: r.value < j <= |line| - 2 ==> line[j] != '='
    ensures r.None? <==> forall j :: 1 <= j <= |line| - 2 ==> line[j] != '='
  {
    if |line| < 3 then None else SplitSearch(line, |line| - 2)
  }

  /** `String.Trim(' ', '"')`: the longest slice of `s` that neither starts
      nor ends with a space or a double quote, everything cut off being
      spaces and double quotes. */
  function Trim(s: string): (r: string)
    ensures |r| <= |s|
    ensures |r| > 0 ==> !IsTrimmed(r[0]) && !IsTrimmed(r[|r| - 1])
    ensures |r| <= |TrimStart(s)| <= |s|
    ensures r == s[|s| - |TrimStart(s)|..|s| - |TrimStart(s)| + |r|]
    ensures forall j :: 0 <= j < |s| - |TrimStart(s)| ==> IsTrimmed(s[j])
    ensures forall j :: |s| - |TrimStart(s)| + |r| <= j < |s| ==> IsTrimmed(s[j])
    ensures (|s| == 0 || (!IsTrimmed(s[0]) && !IsTrimmed(s[|s| - 1]))) ==> r == s
  {
    TrimEnd(TrimStart(s))
  }

  function TrimStart(s: string): (r: string)
    ensures |r| <= |s| && r == s[|s| - |r|..]
    ensures |r| > 0 ==> !IsTrimmed(r[0])
    ensures forall j :: 0 <= j < |s| - |r| ==> IsTrimmed(s[j])
    ensures |s| > 0 && !IsTrimmed(s[0]) ==> r == s
  {
    s[SkipForward(s, 0)..]
  }

  function TrimEnd(s: string): (r: string)
    ensures |r| <= |s| && r == s[..|r|]
    ensures |r| > 0 ==> !IsTrimmed(r[|r| - 1])
    ensures forall j :: |r| <= j < |s| ==> IsTrimmed(s[j])
    ensures |s| > 0 && !IsTrimmed(s[|s| - 1]) ==> r == s
  {
    s[..SkipBackward(s, |s|)]
  }

  /** The first position from `i` on that is not trimmed, or `|s|`. */
  function SkipForward(s: string, i: nat): (n: nat)
    requires i <= |s|
    ensures i <= n <= |s|
    ensures forall j :: i <= j < n ==> IsTrimmed(s[j])
    ensures n < |s| ==> !IsTrimmed(s[n])
    decreases |s| - i
  {
    if i < |s| && IsTrimmed(s[i]) then SkipForward(s, i + 1) else i
  }

  /** The end of the slice `s[..i]` with its trimmed tail removed. */
  function SkipBackward(s: string, i: nat): (n: nat)
    requires i <= |s|
    ensures n <= i
    ensures forall j :: n <= j < i ==> IsTrimmed(s[j])
    ensures n > 0 ==> !IsTrimmed(s[n - 1])
  {
    if i > 0 && IsTrimmed(s[i - 1]) then SkipBackward(s, i - 1) else i
  }

  /** The two groups of a matching line, untrimmed. After `=`, the optional
      `\s` takes one white-space character when one more character follows
      it; otherwise the second group starts right after `=`. */
  function Groups(line: string): (r: Option<(string, string)>)
    ensures r.Some? <==> LastSplit(line).Some?
    ensures r.Some? ==> var q := LastSplit(line).value;
            r.value.0 == line[..q]
            && |r.value.1| >= 1
            && (r.value.1 == line[q + 1..] || (IsRegexSpace(line[q + 1]) && r.value.1 == line[q + 2..]))
  {
    match LastSplit(line)
    case None => None
    case Some(q) =>
      var value := if IsRegexSpace(line[q + 1]) && q + 2 < |line| then line[q + 2..] else line[q + 1..];
      Some((line[..q], value))
  }

  /** One line: `Some((key, value))` when the pattern matches. */
  function MatchLine(line: string): (r: Option<(string, string)>)
    ensures r.Some? <==> exists j :: 1 <= j <= |line| - 2 && line[j] == '='
  {
    match Groups(line)
    case None => None
    case Some((k, v)) => Some((Trim(k), Trim(v)))
  }

  /** The entries the matching lines give, in file order. */
  function Entries(lines: seq<string>): (r: seq<(string, string)>)
    ensures |r| <= |lines|
  {
    if |lines| == 0 then []
    else
      var m := MatchLine(lines[|lines| - 1]);
      Entries(lines[..|lines| - 1]) + (if m.Some? then [m.value] else [])
  }

  /** The lines logged as not valid, in file order. */
  function Skipped(lines: seq<string>): seq<string> {
    if |lines| == 0 then []
    else
      var line := lines[|lines| - 1];
      Skipped(lines[..|lines| - 1]) + (if MatchLine(line).None? then [line] else [])
  }

  predicate DistinctKeys(entries: seq<(string, string)>) {
    forall i, j :: 0 <= i < j < |entries| ==> entries[i].0 != entries[j].0
  }

  /** What `TryParseIni` returns and logs: its boolean, the `out` dictionary
      as its entries in insertion order, and the lines it reported. */
  datatype IniResult = IniResult(found: bool, result: Option<seq<(string, string)>>, skipped: seq<string>)

  /** The entries and skipped lines of one more line. */
  lemma StepLine(lines: seq<string>, k: nat)
    requires k < |lines|
    ensures Entries(lines[..k + 1]) == Entries(lines[..k]) + (if MatchLine(lines[k]).Some? then [MatchLine(lines[k]).value] else [])
    ensures Skipped(lines[..k + 1]) == Skipped(lines[..k]) + (if MatchLine(lines[k]).None? then [lines[k]] else [])
  {
    assert lines[..k + 1][..k] == lines[..k];
    assert lines[..k + 1][k] == lines[k];
  }

  /** Whether some entry already has `key`. */
  function HasKey(entries: seq<(string, string)>, key: string): (b: bool)
    ensures b <==> exists i :: 0 <= i < |entries| && entries[i].0 == key
  {
    if |entries| == 0 then false
    else entries[|entries| - 1].0 == key || HasKey(entries[..|entries| - 1], key)
  }

  /** `TryParseIni`. A missing file gives false and a null dictionary. An
      existing file gives true, even when no line matches. Two lines with the
      same key make `Dictionary.Add` throw, and nothing catches it. */
  method TryParseIni(file: Option<seq<string>>) returns (r: Result<IniResult>)
    requires file.Some? ==> forall i :: 0 <= i < |file.value| ==> IsLine(file.value[i])
    ensures file.None? ==> r == Ok(IniResult(false, None, []))
    ensures file.Some? ==> (r.Ok? <==> DistinctKeys(Entries(file.value)))
    ensures file.Some? && r.Ok? ==> r.value == IniResult(true, Some(Entries(file.value)), Skipped(file.value))
    ensures r.Err? ==> r.error.ArgumentException?
  {
    if file.None? {
      return Ok(IniResult(false, None, []));
    }
    var lines := file.value;
    var entries: seq<(string, string)> := [];
    var skipped: seq<string> := [];
    var k := 0;
    while k < |lines|
      invariant 0 <= k <= |lines|
      invariant entries == Entries(lines[..k]) && skipped == Skipped(lines[..k])
      invariant DistinctKeys(entries)
    {
      StepLine(lines, k);
      var m := MatchLine(lines[k]);
      if m.Some? {
        if HasKey(entries, m.value.0) {
          FirstDuplicateStays(lines, k);
          return Err(ArgumentException("An item with the same key has already been added."));
        }
        AddKeepsDistinct(entries, m.value);
        entries := entries + [m.value];
      } else {
        skipped := skipped + [lines[k]];
      }
      k := k + 1;
    }
    assert lines[..k] == lines;
    return Ok(IniResult(true, Some(entries), skipped));
  }

  /** Adding an entry with a new key keeps the keys distinct. */
  lemma AddKeepsDistinct(entries: seq<(string, string)>, e: (string, string))
    requires DistinctKeys(entries) && !HasKey(entries, e.0)
    ensures DistinctKeys(entries + [e])
  {
  }

  /** The entries of two pieces of a file, one after the other. */
  lemma {:induction false} EntriesAppend(a: seq<string>, b: seq<string>)
    ensures Entries(a + b) == Entries(a) + Entries(b)
    decreases |b|
  {
    if |b| == 0 {
      AppendEmpty(a, b);
    } else {
      AppendSplitLast(a, b);
      EntriesAppend(a, b[..|b| - 1]);
    }
  }

  /** A key that occurs before an entry with the same key makes the keys of
      any continuation not distinct. */
  lemma DuplicateNotDistinct(before: seq<(string, string)>, e: (string, string), after: seq<(string, string)>)
    requires HasKey(before, e.0)
    ensures !DistinctKeys(before + [e] + after)
  {
    var all := before + [e] + after;
    var i :| 0 <= i < |before| && before[i].0 == e.0;
    assert all[i] == before[i] && all[|before|] == e;
  }

  /** Once a line repeats a key of an earlier line, the file's keys are not
      distinct. */
  lemma FirstDuplicateStays(lines: seq<string>, k: nat)
    requires k < |lines| && MatchLine(lines[k]).Some?
    requires HasKey(Entries(lines[..k]), MatchLine(lines[k]).value.0)
    ensures !DistinctKeys(Entries(lines))
  {
    var e := MatchLine(lines[k]).value;
    var a, b := lines[..k + 1], lines[k + 1..];
    SplitAfter(lines, k);
    EntriesAppend(a, b);
    StepLine(lines, k);
    DuplicateNotDistinct(Entries(lines[..k]), e, Entries(b));
  }

  /** Where the last `=` of `prefix + "=" + value` sits when `value` has none. */
  lemma SplitOfJoin(prefix: string, value: string)
    requires |prefix| >= 1 && |value| >= 1
    requires forall i :: 0 <= i < |value| ==> value[i] != '='
    ensures LastSplit(prefix + "=" + value) == Some(|prefix|)
  {
    var line := prefix + "=" + value;
    assert line[|prefix|] == '=';
    assert forall j :: |prefix| < j < |line| ==> line[j] == value[j - |prefix| - 1];
  }

  /** Trimming a space off the end of a key that trimming leaves alone. */
  lemma TrimSpaceSuffix(key: string)
    requires |key| >= 1 && !IsTrimmed(key[0]) && !IsTrimmed(key[|key| - 1])
    ensures Trim(key + " ") == key
  {
    var padded := key + " ";
    assert padded[0] == key[0];
    assert TrimStart(padded) == padded;
    assert IsTrimmed(padded[|key|]) && padded[|key| - 1] == key[|key| - 1];
    assert SkipBackward(padded, |padded|) == SkipBackward(padded, |key|) == |key|;
    assert padded[..|key|] == key;
  }

  /** The groups of `prefix + "=" + rest` when `rest` has no `=`: the prefix,
      and `rest` with at most one leading white space removed. */
  lemma GroupsOfJoin(prefix: string, rest: string)
    requires |prefix| >= 1 && |rest| >= 1
    requires forall i :: 0 <= i < |rest| ==> rest[i] != '='
    ensures var line := prefix + "=" + rest;
            Groups(line) == Some((prefix, if IsRegexSpace(rest[0]) && |rest| > 1 then rest[1..] else rest))
  {
    var line := prefix + "=" + rest;
    SplitOfJoin(prefix, rest);
    var q := |prefix|;
    assert line[..q] == prefix;
    assert line[q + 1..] == rest;
    assert line[q + 1] == rest[0];
    if IsRegexSpace(rest[0]) && |rest| > 1 {
      assert line[q + 2..] == rest[1..];
    }
  }

  /** A line written as `key=value` or `key = value` reads back as that pair,
      for any key and value that trimming leaves alone, with no `=` in the
      value and a value that does not start with white space. */
  lemma IniLineRoundTrip(key: string, value: string, spaced: bool)
    requires |key| >= 1 && |value| >= 1
    requires !IsTrimmed(key[0]) && !IsTrimmed(key[|key| - 1])
    requires !IsTrimmed(value[0]) && !IsTrimmed(value[|value| - 1]) && !IsRegexSpace(value[0])
    requires forall i :: 0 <= i < |value| ==> value[i] != '='
    ensures var sep := if spaced then " = " else "=";
            MatchLine(key + sep + value) == Some((key, value))
  {
    if spaced {
      SpacedLine(key, value);
    } else {
      PlainLine(key, value);
    }
  }

  lemma PlainLine(key: string, value: string)
    requires |key| >= 1 && |value| >= 1
    requires !IsTrimmed(key[0]) && !IsTrimmed(key[|key| - 1])
    requires !IsTrimmed(value[0]) && !IsTrimmed(value[|value| - 1]) && !IsRegexSpace(value[0])
    requires forall i :: 0 <= i < |value| ==> value[i] != '='
    ensures MatchLine(key + "=" + value) == Some((key, value))
  {
    GroupsOfJoin(key, value);
    MatchOfGroups(key + "=" + value, key, value);
  }

  lemma SpacedLine(key: string, value: string)
    requires |key| >= 1 && |value| >= 1
    requires !IsTrimmed(key[0]) && !IsTrimmed(key[|key| - 1])
    requires !IsTrimmed(value[0]) && !IsTrimmed(value[|value| - 1]) && !IsRegexSpace(value[0])
    requires forall i :: 0 <= i < |value| ==> value[i] != '='
    ensures MatchLine(key + " = " + value) == Some((key, value))
  {
    var rest := " " + value;
    assert forall i :: 0 <= i < |rest| ==> rest[i] != '=';
    GroupsOfJoin(key + " ", rest);
    assert rest[1..] == value;
    assert key + " = " + value == (key + " ") + "=" + rest;
    TrimSpaceSuffix(key);
    MatchOfGroups(key + " = " + value, key + " ", value);
  }

  lemma MatchOfGroups(line: string, k: string, v: string)
    requires Groups(line) == Some((k, v))
    ensures MatchLine(line) == Some((Trim(k), Trim(v)))
  {
  }

  /** Lines too short to hold a character on both sides of `=` are skipped. */
  lemma ShortLinesSkipped(line: string)
    requires |line| <= 2
    ensures MatchLine(line).None?
  {
  }
}

=== FILE: resources.dfy ===
/** Loaded resources as the core sees them: a name, a native data handle and,
    for a texture, its number of frames.
 */
module Resources {
  import opened Structs

  datatype AudioType = Music | Effect

  /** `ResourceBase` and its subclasses. Object identity is the value of all
      fields; distinct loaded resources differ at least in `dataPtr`. A
      texture's `Count` is the length of its frame array. */
  datatype Resource =
    | TextureResource(resourceName: string, dataPtr: nat, frameCount: ArrayLength)
    | AudioResource(resourceName: string, dataPtr: nat, audioType: AudioType)
    | FontResource(resourceName: string, dataPtr: nat)

  /** The length of a .NET array. */
  type ArrayLength = n: int | 0 <= n <= INT32_MAX

  type Texture = r: Resource | r.TextureResource? witness TextureResource("", 0, 0)

  type Font = r: Resource | r.FontResource? witness FontResource("", 0)

  /** `TextureResource.Count`. */
  function Count(t: Texture): ArrayLength {
    t.frameCount
  }
}

=== FILE: sampler.dfy ===
/** The rolling-window sampler that smooths frame and tick timings: a bounded
    FIFO of the most recent samples and their mean.
 */
module Sampling {
  import opened Errors

  /** `data` is the window, oldest first; `max` its capacity. */
  datatype Sampler = Sampler(data: seq<real>, max: int)

  /** What every sampler the constructor and `AddPoint` produce satisfies. */
  ghost predicate Valid(s: Sampler) {
    s.max >= 2 && |s.data| <= s.max
  }

  /** The constructor refuses a capacity below 2 with a plain exception. */
  function NewSampler(maxPoints: int): (r: Result<Sampler>)
    ensures r.Ok? <==> maxPoints >= 2
    ensures r.Ok? ==> r.value.data == [] && r.value.max == maxPoints && Valid(r.value)
    ensures r.Err? ==> r.error.GeneralException?
  {
    if maxPoints < 2 then Err(GeneralException("Sampler must have a max point greater than or equal to 2."))
    else Ok(Sampler([], maxPoints))
  }

  /** Appends `x`; when the window then holds more than `max` samples, the
      oldest one (index 0) is dropped. */
  function AddPoint(s: Sampler, x: real): (r: Sampler)
    ensures r.max == s.max
    ensures s.max >= 1 ==> |r.data| >= 1 && r.data[|r.data| - 1] == x
    ensures |s.data| < s.max ==> r.data == s.data + [x]
    ensures |s.data| >= s.max ==> r.data == (s.data + [x])[1..]
    ensures Valid(s) ==> Valid(r)
  {
    var appended := s.data + [x];
    if |appended| > s.max then Sampler(appended[1..], s.max) else Sampler(appended, s.max)
  }

  /** Adding the samples of `xs` one after another. */
  function AddPoints(s: Sampler, xs: seq<real>): (r: Sampler)
    decreases |xs|
  {
    if |xs| == 0 then s else AddPoints(AddPoint(s, xs[0]), xs[1..])
  }

  /** The last `n` elements of `q` (all of `q` when it is shorter). */
  function LastN(q: seq<real>, n: nat): (r: seq<real>)
    ensures |r| == if |q| <= n then |q| else n
  {
    if |q| <= n then q else q[|q| - n..]
  }

  /** However many samples are added, the window holds exactly the most recent
      `max` of everything the sampler has seen, in insertion order. */
  lemma {:induction false} AddPointsKeepsLastWindow(s: Sampler, xs: seq<real>)
    requires Valid(s)
    ensures AddPoints(s, xs).data == LastN(s.data + xs, s.max)
    ensures Valid(AddPoints(s, xs))
    decreases |xs|
  {
    if |xs| > 0 {
      var s1 := AddPoint(s, xs[0]);
      AddPointsKeepsLastWindow(s1, xs[1..]);
      assert s1.data + xs[1..] == LastN(s.data + [xs[0]], s.max) + xs[1..];
      LastNOfAppended(s.data + [xs[0]], xs[1..], s.max);
      assert s.data + [xs[0]] + xs[1..] == s.data + xs;
    }
  }

  lemma LastNOfAppended(p: seq<real>, t: seq<real>, n: nat)
    ensures LastN(LastN(p, n) + t, n) == LastN(p + t, n)
  {
    if |p| > n {
      var q := p + t;
      var u := LastN(p, n) + t;
      assert u == q[|p| - n..];
      if |u| > n {
        assert u[|u| - n..] == q[|q| - n..];
      }
    }
  }

  /** From a fresh sampler, the window after `xs` is the last min(|xs|, max)
      samples of `xs`. */
  lemma FreshSamplerWindow(maxPoints: int, xs: seq<real>)
    requires maxPoints >= 2
    ensures var s := NewSampler(maxPoints).value;
            AddPoints(s, xs).data == LastN(xs, maxPoints) && |AddPoints(s, xs).data| <= maxPoints
  {
    var s := NewSampler(maxPoints).value;
    AddPointsKeepsLastWindow(s, xs);
    assert s.data + xs == xs;
  }

  function Sum(q: seq<real>): real {
    if |q| == 0 then 0.0 else Sum(q[..|q| - 1]) + q[|q| - 1]
  }

  /** `GetAverage`: the sum divided by the count. On an empty window the source
      divides 0.0 by 0 and gets NaN, modelled as `None`. */
  function GetAverage(s: Sampler): (r: Option<real>)
    ensures r.None? <==> |s.data| == 0
    ensures r.Some? ==> r.value * (|s.data| as real) == Sum(s.data)
  {
    if |s.data| == 0 then None else Some(Sum(s.data) / (|s.data| as real))
  }

  /** The average lies between the smallest and the largest sample. */
  lemma AverageWithinBounds(s: Sampler, lo: real, hi: real)
    requires |s.data| > 0
    requires forall i :: 0 <= i < |s.data| ==> lo <= s.data[i] <= hi
    ensures lo <= GetAverage(s).value <= hi
  {
    SumBounds(s.data, lo, hi);
    var n := |s.data| as real;
    assert GetAverage(s).value == Sum(s.data) / n;
    DivMonotone(lo * n, Sum(s.data), n);
    DivMonotone(Sum(s.data), hi * n, n);
    assert (lo * n) / n == lo && (hi * n) / n == hi;
  }

  lemma DivMonotone(x: real, y: real, n: real)
    requires n > 0.0 && x <= y
    ensures x / n <= y / n
  {
    assert y / n - x / n == (y - x) / n;
  }

  lemma {:induction false} SumBounds(q: seq<real>, lo: real, hi: real)
    requires forall i :: 0 <= i < |q| ==> lo <= q[i] <= hi
    ensures lo * (|q| as real) <= Sum(q) <= hi * (|q| as real)
  {
    if |q| > 0 {
      var p := q[..|q| - 1];
      SumBounds(p, lo, hi);
      var m := |p| as real;
      assert |q| as real == m + 1.0;
      assert lo * (m + 1.0) == lo * m + lo;
      assert hi * (m + 1.0) == hi * m + hi;
    }
  }
}

=== FILE: scene.dfy ===
/** Scenes and their live instances. A `Scene` is a template holding a list of
    placements (a game object and where to put it); `CreateInstance` turns it
    into a `SceneInstance` with one live instance per placement. The virtual
    callbacks of game objects and scenes are recorded in a trace, in the order
    they fire; the instance state they change is the base-class behaviour.
 */
module Scenes {
  import opened Errors
  import opened Structs
  import opened GameObjects

  /** One `GameObjectInfo` entry: the template and its start position. */
  datatype Placement = Placement(obj: GameObject, position: Coord)

  /** A `Scene` template. `className` is the subclass's runtime type;
      `animateSprites` is `Properties.AnimateSprites`. */
  datatype Scene = Scene(
    name: Option<string>,
    className: TypeName,
    sceneSize: Size,
    animateSprites: bool,
    placements: seq<Placement>,
    referenceType: Option<TypeName>)

  /** The `Scene` constructor: the view size is accepted and not stored. */
  function NewScene(className: TypeName, sceneSize: Size, viewSize: Size): (s: Scene)
    ensures s.sceneSize == sceneSize && s.animateSprites && s.placements == []
    ensures s.className == className && s.name.None? && s.referenceType.None?
  {
    Scene(None, className, sceneSize, true, [], None)
  }

  datatype SceneInstance = SceneInstance(
    baseRef: Option<Scene>,
    instances: seq<Instance>,
    referenceType: Option<TypeName>,
    viewPosition: Coord,
    viewOrigin: Coord)

  /** A virtual callback, in the order it fires. `OnCreateCall` records how
      many instances the collection held when it fired. */
  datatype Callback =
    | OnCreateCall(hash: Guid, collectionCount: nat)
    | StepCall(hash: Guid)
    | OnDestroyCall(hash: Guid)
    | SceneOnCreateCall

  /** Every placement's template accepts its own default image index, which is
      exactly when `CreateInstance` of each of them succeeds. */
  predicate AllPlaceable(placements: seq<Placement>) {
    forall i :: 0 <= i < |placements| ==> IndexAccepted(placements[i].obj.defaultSprite, placements[i].obj.defaultImageIndex)
  }

  /** The live instance placement `p` yields with the fresh hash `h`. */
  function Placed(p: Placement, h: Guid): Instance
    requires IndexAccepted(p.obj.defaultSprite, p.obj.defaultImageIndex)
  {
    CreateInstance(p.obj, h).value.(position := CopyCoord(p.position))
  }

  /** `Scene.CreateInstance`. `hashes` are the `Guid`s the instances draw, one
      per placement. Each placement's template creates an instance, which is
      moved to the placement's position and appended, and then the template's
      `OnCreate` fires for it. The scene's own `OnCreate` is not called. An
      instance that cannot be created throws out of the loop; the callbacks
      already fired stay fired. */
  method CreateSceneInstance(scene: Scene, hashes: seq<Guid>) returns (r: Outcome<seq<Callback>, SceneInstance>)
    requires |hashes| == |scene.placements|
    ensures r.result.Ok? <==> AllPlaceable(scene.placements)
    ensures r.result.Ok? ==>
              var si := r.result.value;
              && si.baseRef == Some(scene) && si.referenceType == scene.referenceType
              && si.viewPosition == Zero && si.viewOrigin == Zero
              && |si.instances| == |scene.placements|
              && (forall i :: 0 <= i < |si.instances| ==> si.instances[i] == Placed(scene.placements[i], hashes[i]))
              && |r.state| == |si.instances|
              && (forall i :: 0 <= i < |r.state| ==> r.state[i] == OnCreateCall(hashes[i], i + 1))
    ensures r.result.Err? ==>
              && r.result.error.EngineException?
              && |r.state| < |scene.placements|
              && AllPlaceable(scene.placements[..|r.state|])
              && !IndexAccepted(scene.placements[|r.state|].obj.defaultSprite, scene.placements[|r.state|].obj.defaultImageIndex)
              && (forall i :: 0 <= i < |r.state| ==> r.state[i] == OnCreateCall(hashes[i], i + 1))
    ensures SceneOnCreateCall !in r.state
  {
    var instances: seq<Instance> := [];
    var trace: seq<Callback> := [];
    var k := 0;
    while k < |scene.placements|
      invariant 0 <= k <= |scene.placements|
      invariant |instances| == k && |trace| == k
      invariant AllPlaceable(scene.placements[..k])
      invariant forall i :: 0 <= i < k ==> instances[i] == Placed(scene.placements[i], hashes[i])
      invariant forall i :: 0 <= i < k ==> trace[i] == OnCreateCall(hashes[i], i + 1)
    {
      var p := scene.placements[k];
      var created := CreateInstance(p.obj, hashes[k]);
      if created.Err? {
        return Outcome(trace, Err(created.error));
      }
      assert scene.placements[..k + 1] == scene.placements[..k] + [p];
      var inst := created.value.(position := CopyCoord(p.position));
      instances := instances + [inst];
      trace := trace + [OnCreateCall(inst.hash, |instances|)];
      k := k + 1;
    }
    assert scene.placements[..k] == scene.placements;
    return Outcome(trace, Ok(SceneInstance(Some(scene), instances, scene.referenceType, Coord(0, 0), Coord(0, 0))));
  }

  /** A created instance sits at its placement's coordinate, refers back to
      the placement's template and keeps the hash it drew. */
  lemma PlacedInstance(p: Placement, h: Guid)
    requires IndexAccepted(p.obj.defaultSprite, p.obj.defaultImageIndex)
    ensures Placed(p, h).position == p.position
    ensures Placed(p, h).baseRef == Some(p.obj) && Placed(p, h).hash == h
    ensures Placed(p, h).imageIndex == p.obj.defaultImageIndex && Placed(p, h).depth == 0
  {
  }

  /** `Scene.Step(caller)`: every instance's template `Step` fires once, in
      collection order, with no culling; the base `Step` wraps the angle. An
      instance without a template throws at that point, leaving the earlier
      instances stepped. */
  method StepScene(si: SceneInstance) returns (r: Outcome<(SceneInstance, seq<Callback>), ()>)
    ensures var (after, trace) := r.state;
            && |after.instances| == |si.instances|
            && after == si.(instances := after.instances)
            && |trace| <= |si.instances|
            && (forall i :: 0 <= i < |trace| ==> trace[i] == StepCall(si.instances[i].hash))
            && (forall i :: 0 <= i < |trace| ==> after.instances[i] == GameObjects.Step(si.instances[i]))
            && (forall i :: |trace| <= i < |si.instances| ==> after.instances[i] == si.instances[i])
    ensures r.result.Ok? <==> forall i :: 0 <= i < |si.instances| ==> si.instances[i].baseRef.Some?
    ensures r.result.Ok? ==> |r.state.1| == |si.instances|
    ensures r.result.Err? ==> r.result.error == NullReference && |r.state.1| < |si.instances| && si.instances[|r.state.1|].baseRef.None?
  {
    var instances := si.instances;
    var trace: seq<Callback> := [];
    var k := 0;
    while k < |si.instances|
      invariant 0 <= k <= |si.instances|
      invariant |instances| == |si.instances| && |trace| == k
      invariant forall i :: 0 <= i < k ==> si.instances[i].baseRef.Some?
      invariant forall i :: 0 <= i < k ==> trace[i] == StepCall(si.instances[i].hash)
      invariant forall i :: 0 <= i < k ==> instances[i] == GameObjects.Step(si.instances[i])
      invariant forall i :: k <= i < |si.instances| ==> instances[i] == si.instances[i]
    {
      if instances[k].baseRef.None? {
        return Outcome((si.(instances := instances), trace), Err(NullReference));
      }
      trace := trace + [StepCall(instances[k].hash)];
      instances := instances[k := GameObjects.Step(instances[k])];
      k := k + 1;
    }
    return Outcome((si.(instances := instances), trace), Ok(()));
  }

  /** After a complete scene step, every instance whose angle lay in
      [-360, 720) has its angle in [0, 360), and the collection keeps its
      order and hashes. */
  lemma StepSceneWrapsAngles(si: SceneInstance, after: SceneInstance, trace: seq<Callback>)
    requires |after.instances| == |si.instances| == |trace|
    requires forall i :: 0 <= i < |trace| ==> after.instances[i] == GameObjects.Step(si.instances[i])
    ensures forall i :: 0 <= i < |si.instances| && -360.0 <= si.instances[i].imageAngle < 720.0 ==>
              0.0 <= after.instances[i].imageAngle < 360.0
    ensures forall i :: 0 <= i < |si.instances| ==> after.instances[i].hash == si.instances[i].hash
  {
    forall i | 0 <= i < |si.instances|
      ensures -360.0 <= si.instances[i].imageAngle < 720.0 ==> 0.0 <= after.instances[i].imageAngle < 360.0
      ensures after.instances[i].hash == si.instances[i].hash
    {
      assert after.instances[i] == GameObjects.Step(si.instances[i]);
    }
  }

  /** `Scene.OnDestroy(caller)`: every instance's template `OnDestroy` fires
      once, in collection order; the base class does nothing else. */
  function OnDestroy(si: SceneInstance): (r: Outcome<seq<Callback>, ()>)
    ensures |r.state| <= |si.instances|
    ensures forall i :: 0 <= i < |r.state| ==> r.state[i] == OnDestroyCall(si.instances[i].hash)
    ensures r.result.Ok? <==> forall i :: 0 <= i < |si.instances| ==> si.instances[i].baseRef.Some?
    ensures r.result.Ok? ==> |r.state| == |si.instances|
    ensures r.result.Err? ==> r.result.error == NullReference && |r.state| < |si.instances| && si.instances[|r.state|].baseRef.None?
  {
    DestroyCalls(si.instances)
  }

  function DestroyCalls(insts: seq<Instance>): (r: Outcome<seq<Callback>, ()>)
    ensures |r.state| <= |insts|
    ensures forall i :: 0 <= i < |r.state| ==> r.state[i] == OnDestroyCall(insts[i].hash)
    ensures r.result.Ok? <==> forall i :: 0 <= i < |insts| ==> insts[i].baseRef.Some?
    ensures r.result.Ok? ==> |r.state| == |insts|
    ensures r.result.Err? ==> r.result.error == NullReference && |r.state| < |insts| && insts[|r.state|].baseRef.None?
  {
    if |insts| == 0 then Outcome([], Ok(()))
    else if insts[0].baseRef.None? then Outcome([], Err(NullReference))
    else
      var rest := DestroyCalls(insts[1..]);
      assert forall i :: 1 <= i < |insts| ==> insts[i] == insts[1..][i - 1];
      Outcome([OnDestroyCall(insts[0].hash)] + rest.state, rest.result)
  }

  /** `SceneInstance.Reinstance`: the scene's `OnDestroy` and then its
      `OnCreate`, which is empty in the base class. The instance collection is
      neither cleared nor repopulated. A missing scene template throws before
      anything fires. */
  function Reinstance(si: SceneInstance): (r: Outcome<(SceneInstance, seq<Callback>), ()>)
    ensures r.state.0 == si
    ensures si.baseRef.None? ==> r == Outcome((si, []), Err(NullReference))
    ensures si.baseRef.Some? && OnDestroy(si).result.Ok? ==>
              r.result.Ok? && r.state.1 == OnDestroy(si).state + [SceneOnCreateCall]
    ensures si.baseRef.Some? && OnDestroy(si).result.Err? ==>
              r.result == OnDestroy(si).result && r.state.1 == OnDestroy(si).state
  {
    if si.baseRef.None? then Outcome((si, []), Err(NullReference))
    else
      var destroyed := OnDestroy(si);
      if destroyed.result.Err? then Outcome((si, destroyed.state), destroyed.result)
      else Outcome((si, destroyed.state + [SceneOnCreateCall]), Ok(()))
  }

  /** Reinstancing a freshly created scene instance destroys each instance in
      placement order, fires the scene's `OnCreate` once, and leaves the same
      instances in place. */
  lemma ReinstanceAfterCreate(scene: Scene, hashes: seq<Guid>, si: SceneInstance)
    requires |hashes| == |scene.placements| && AllPlaceable(scene.placements)
    requires si.baseRef == Some(scene) && |si.instances| == |hashes|
    requires forall i :: 0 <= i < |si.instances| ==> si.instances[i] == Placed(scene.placements[i], hashes[i])
    ensures Reinstance(si).result.Ok? && Reinstance(si).state.0.instances == si.instances
    ensures var trace := Reinstance(si).state.1;
            |trace| == |hashes| + 1 && trace[|hashes|] == SceneOnCreateCall
            && forall i :: 0 <= i < |hashes| ==> trace[i] == OnDestroyCall(hashes[i])
  {
    assert forall i :: 0 <= i < |si.instances| ==> si.instances[i].baseRef.Some? by {
      forall i | 0 <= i < |si.instances| ensures si.instances[i].baseRef.Some? {
        PlacedInstance(scene.placements[i], hashes[i]);
      }
    }
  }
}

=== FILE: scene_manager.dfy ===
/** The scene registry: a static dictionary from names to scene templates.
    Adding an existing name, and getting or removing a missing one, throw.
 */
module SceneManager {
  import opened Errors
  import opened Scenes

  type Registry = map<string, Scene>

  /** The registry starts empty. */
  const EmptyRegistry: Registry := map[]

  /** `HasScene`. */
  predicate HasScene(reg: Registry, name: string) {
    name in reg
  }

  /** `AddScene`: a fresh name is added; an existing one throws and leaves the
      registry as it was. */
  function AddScene(reg: Registry, name: string, scene: Scene): (r: Result<Registry>)
    ensures r.Ok? <==> !HasScene(reg, name)
    ensures r.Ok? ==> HasScene(r.value, name) && r.value[name] == scene
    ensures r.Ok? ==> forall n :: n != name ==> (HasScene(r.value, n) <==> HasScene(reg, n))
    ensures r.Ok? ==> forall n :: n in reg ==> n in r.value && r.value[n] == reg[n]
    ensures r.Err? ==> r.error == EngineException("A scene with the same name already exists in the SceneManager.", "SceneManager.AddScene(string, Scene)")
  {
    if name !in reg then Ok(reg[name := scene])
    else Err(EngineException("A scene with the same name already exists in the SceneManager.", "SceneManager.AddScene(string, Scene)"))
  }

  /** `GetScene`: the scene stored under `name`; a missing name throws. */
  function GetScene(reg: Registry, name: string): (r: Result<Scene>)
    ensures r.Ok? <==> HasScene(reg, name)
    ensures r.Ok? ==> r.value == reg[name]
    ensures r.Err? ==> r.error == EngineException("A scene with the name specified does not exist in the SceneManager.", "SceneManager.GetScene(string)")
  {
    if name in reg then Ok(reg[name])
    else Err(EngineException("A scene with the name specified does not exist in the SceneManager.", "SceneManager.GetScene(string)"))
  }

  /** `RemoveScene`: removes only the entry for `name`; a missing name throws. */
  function RemoveScene(reg: Registry, name: string): (r: Result<Registry>)
    ensures r.Ok? <==> HasScene(reg, name)
    ensures r.Ok? ==> !HasScene(r.value, name)
    ensures r.Ok? ==> forall n :: n != name ==> (HasScene(r.value, n) <==> HasScene(reg, n))
    ensures r.Ok? ==> forall n :: n in r.value ==> n in reg && r.value[n] == reg[n]
    ensures r.Err? ==> r.error == EngineException("A scene with the name specified does not exist in the SceneManager.", "SceneManager.RemoveScene(string)")
  {
    if name in reg then Ok(reg - {name})
    else Err(EngineException("A scene with the name specified does not exist in the SceneManager.", "SceneManager.RemoveScene(string)"))
  }

  /** Adding a fresh name and then getting it returns the scene added. */
  lemma AddThenGet(reg: Registry, name: string, scene: Scene)
    requires !HasScene(reg, name)
    ensures GetScene(AddScene(reg, name, scene).value, name) == Ok(scene)
  {
  }

  /** Adding a fresh name and removing it again restores the registry. */
  lemma AddThenRemove(reg: Registry, name: string, scene: Scene)
    requires !HasScene(reg, name)
    ensures RemoveScene(AddScene(reg, name, scene).value, name) == Ok(reg)
  {
    assert AddScene(reg, name, scene).value - {name} == reg;
  }

  /** Removing a present name and adding its scene back restores the
      registry. */
  lemma RemoveThenAdd(reg: Registry, name: string)
    requires HasScene(reg, name)
    ensures AddScene(RemoveScene(reg, name).value, name, reg[name]) == Ok(reg)
  {
    assert (reg - {name})[name := reg[name]] == reg;
  }

  /** `HasScene` answers exactly the question the three operations' guards
      ask: a name is present iff getting and removing it succeed and adding
      it again throws. */
  lemma HasSceneAgreesWithGuards(reg: Registry, name: string, scene: Scene)
    ensures HasScene(reg, name) <==> GetScene(reg, name).Ok?
    ensures HasScene(reg, name) <==> RemoveScene(reg, name).Ok?
    ensures HasScene(reg, name) <==> AddScene(reg, name, scene).Err?
  {
  }

  /** Operations on different names do not interfere. */
  lemma DistinctNamesCommute(reg: Registry, a: string, b: string, sa: Scene, sb: Scene)
    requires a != b && !HasScene(reg, a) && !HasScene(reg, b)
    ensures AddScene(AddScene(reg, a, sa).value, b, sb) == AddScene(AddScene(reg, b, sb).value, a, sa)
  {
    assert reg[a := sa][b := sb] == reg[b := sb][a := sa];
  }
}

=== FILE: seqs.dfy ===
/** Facts about splitting and joining sequences, kept apart so that proofs
    about the engine state them without their own definitions in view. */
module Seqs {

  lemma SplitAfter<T>(s: seq<T>, k: nat)
    requires k < |s|
    ensures s == s[..k + 1] + s[k + 1..]
  {
  }

  /** A non-empty sequence is its front followed by its last element. */
  lemma SplitLast<T>(s: seq<T>)
    requires |s| > 0
    ensures s == s[..|s| - 1] + [s[|s| - 1]]
  {
  }

  /** Dropping the last element of `a + b` drops it from `b`. */
  lemma AppendSplitLast<T>(a: seq<T>, b: seq<T>)
    requires |b| > 0
    ensures (a + b)[..|a + b| - 1] == a + b[..|b| - 1]
    ensures (a + b)[|a + b| - 1] == b[|b| - 1]
    ensures a + b == (a + b[..|b| - 1]) + [b[|b| - 1]]
  {
  }

  lemma AppendEmpty<T>(a: seq<T>, b: seq<T>)
    requires |b| == 0
    ensures a + b == a
  {
  }
}

=== FILE: structs.dfy ===
/** The engine's value structs: integer coordinates with unchecked 32-bit
    arithmetic, sizes, RGBA colours, and their textual forms.
 */
module Structs {
  import opened Errors

  const INT32_MIN: int := -0x8000_0000
  const INT32_MAX: int := 0x7FFF_FFFF
  const TWO_POW_32: int := 0x1_0000_0000

  /** A C# `int`. */
  type Int32 = x: int | INT32_MIN <= x <= INT32_MAX

  /** A C# `byte`. */
  type Byte = x: int | 0 <= x < 256

  /** The value unchecked C# `int` arithmetic produces for the exact result `x`:
      the unique 32-bit value congruent to `x` modulo 2^32. */
  function Wrap32(x: int): (r: Int32)
    ensures (x - r) % TWO_POW_32 == 0
    ensures INT32_MIN <= x <= INT32_MAX ==> r == x
  {
    (x - INT32_MIN) % TWO_POW_32 + INT32_MIN
  }

  /** Wrapping commutes with adding multiples of 2^32. */
  lemma Wrap32Shift(x: int, k: int)
    ensures Wrap32(x + k * TWO_POW_32) == Wrap32(x)
  {
    var a := x - INT32_MIN;
    assert (a + k * TWO_POW_32) % TWO_POW_32 == a % TWO_POW_32;
  }

  /** Two exact values with the same wrapped value stay congruent after the
      same addition. */
  lemma Wrap32Congruent(x: int, y: int)
    requires (x - y) % TWO_POW_32 == 0
    ensures Wrap32(x) == Wrap32(y)
  {
    var k := (x - y) / TWO_POW_32;
    assert x == y + k * TWO_POW_32;
    Wrap32Shift(y, k);
  }

  function Abs(x: int): nat {
    if x < 0 then -x else x
  }

  /** C# integer division: the quotient of the magnitudes, negated when the
      signs differ, i.e. rounded toward zero. (Dafny's own `/` is Euclidean.) */
  function TruncDiv(a: int, b: int): int
    requires b != 0
  {
    if (a >= 0) == (b > 0) then Abs(a) / Abs(b) else -(Abs(a) / Abs(b))
  }

  /** The remainder left by `TruncDiv` is smaller than the divisor in
      magnitude and has the sign of the dividend. */
  lemma TruncDivRemainder(a: int, b: int)
    requires b != 0
    ensures Abs(a - TruncDiv(a, b) * b) < Abs(b)
    ensures a - TruncDiv(a, b) * b == 0 || (a - TruncDiv(a, b) * b < 0 <==> a < 0)
  {
    var n: int, d: int := Abs(a), Abs(b);
    var q: int := n / d;
    var m: int := n - q * d;
    assert 0 <= m < d;
    var t := TruncDiv(a, b);
    var s: int := if a >= 0 then 1 else -1;
    assert a == s * n;
    assert t * b == s * (q * d) by { SignedProduct(a, b, q, d); }
    assert a - t * b == s * m;
  }

  lemma SignedProduct(a: int, b: int, q: int, d: int)
    requires b != 0 && d == Abs(b)
    requires TruncDiv(a, b) == (if (a >= 0) == (b > 0) then q else -q)
    ensures TruncDiv(a, b) * b == (if a >= 0 then 1 else -1) * (q * d)
  {
    if b > 0 {
      assert b == d;
    } else {
      assert b == -d;
      assert (-q) * (-d) == q * d;
      assert q * (-d) == -(q * d);
    }
  }

  /** `a / b` on C# ints: division by zero throws, and so does the one
      quotient that does not fit, `int.MinValue / -1`. */
  function Int32Div(a: Int32, b: Int32): (r: Result<Int32>)
    ensures r.Err? <==> b == 0 || (a == INT32_MIN && b == -1)
    ensures r.Err? && b == 0 ==> r.error.DivideByZero?
    ensures r.Err? && b != 0 ==> r.error.Overflow?
    ensures r.Ok? ==> Abs(a - r.value * b) < Abs(b)
    ensures r.Ok? ==> a - r.value * b == 0 || (a - r.value * b < 0 <==> a < 0)
  {
    if b == 0 then Err(DivideByZero)
    else if a == INT32_MIN && b == -1 then Err(Overflow)
    else
      var q := TruncDiv(a, b);
      assert INT32_MIN <= q <= INT32_MAX by { TruncDivBound(a, b); }
      assert Abs(a - q * b) < Abs(b) && (a - q * b == 0 || (a - q * b < 0 <==> a < 0)) by {
        TruncDivRemainder(a, b);
      }
      Ok(q)
  }

  lemma TruncDivBound(a: int, b: int)
    requires INT32_MIN <= a <= INT32_MAX && INT32_MIN <= b <= INT32_MAX
    requires b != 0 && !(a == INT32_MIN && b == -1)
    ensures INT32_MIN <= TruncDiv(a, b) <= INT32_MAX
  {
    var n := Abs(a);
    var d := Abs(b);
    QuotientBound(n, d);
  }

  lemma QuotientBound(n: nat, d: int)
    requires d >= 1
    ensures n / d <= n
    ensures d >= 2 ==> n / d * 2 <= n
  {
    DivBounds(n, d);
    if d >= 2 {
      MulLeft(n / d, 2, d);
    }
  }

  lemma MulLeft(q: nat, x: int, y: int)
    requires x <= y
    ensures q * x <= q * y
  {
    assert q * y - q * x == q * (y - x);
  }

  /** Euclidean division of a natural number by a positive divisor shrinks it. */
  lemma DivBounds(x: nat, d: int)
    requires d >= 1
    ensures 0 <= x / d <= x
    ensures x / d * d <= x
  {
    assert x / d * d + x % d == x;
    assert x / d <= x / d * d by { MulMonotone(d, x / d); }
  }

  // ---------------------------------------------------------------- Coord

  /** An integer 2D coordinate. */
  datatype Coord = Coord(x: Int32, y: Int32)

  /** `Coord.Zero`. */
  const Zero: Coord := Coord(0, 0)

  /** The copy constructor `new Coord(copy)`. */
  function CopyCoord(c: Coord): (r: Coord)
    ensures r == c
  {
    Coord(c.x, c.y)
  }

  /** `a + b`: componentwise, wrapping at 32 bits. */
  function Add(a: Coord, b: Coord): (r: Coord)
    ensures (r.x - (a.x + b.x)) % TWO_POW_32 == 0 && (r.y - (a.y + b.y)) % TWO_POW_32 == 0
  {
    Coord(Wrap32(a.x + b.x), Wrap32(a.y + b.y))
  }

  /** `a - b`: componentwise, wrapping at 32 bits. */
  function Sub(a: Coord, b: Coord): (r: Coord)
    ensures (r.x - (a.x - b.x)) % TWO_POW_32 == 0 && (r.y - (a.y - b.y)) % TWO_POW_32 == 0
  {
    Coord(Wrap32(a.x - b.x), Wrap32(a.y - b.y))
  }

  /** `a * b`: componentwise, wrapping at 32 bits. */
  function Mul(a: Coord, b: Coord): (r: Coord)
    ensures (r.x - a.x * b.x) % TWO_POW_32 == 0 && (r.y - a.y * b.y) % TWO_POW_32 == 0
  {
    Coord(Wrap32(a.x * b.x), Wrap32(a.y * b.y))
  }

  /** `a / b`: componentwise truncating division; the X quotient is computed
      first, so its exception is the one thrown when both would fail. */
  function Div(a: Coord, b: Coord): (r: Result<Coord>)
    ensures r.Ok? <==> Int32Div(a.x, b.x).Ok? && Int32Div(a.y, b.y).Ok?
    ensures r.Err? ==> r.error == (if b.x == 0 then DivideByZero
                                   else if a.x == INT32_MIN && b.x == -1 then Overflow
                                   else if b.y == 0 then DivideByZero
                                   else Overflow)
    ensures r.Ok? ==> Abs(a.x - r.value.x * b.x) < Abs(b.x) && Abs(a.y - r.value.y * b.y) < Abs(b.y)
    ensures r.Ok? ==> (a.x - r.value.x * b.x == 0 || (a.x - r.value.x * b.x < 0 <==> a.x < 0))
                      && (a.y - r.value.y * b.y == 0 || (a.y - r.value.y * b.y < 0 <==> a.y < 0))
  {
    var qx :- Int32Div(a.x, b.x);
    var qy :- Int32Div(a.y, b.y);
    Ok(Coord(qx, qy))
  }

  /** The overloads taking an `int` right operand apply it to both components. */
  function AddScalar(a: Coord, k: Int32): (r: Coord)
    ensures r == Add(a, Coord(k, k))
  {
    Coord(Wrap32(a.x + k), Wrap32(a.y + k))
  }

  function SubScalar(a: Coord, k: Int32): (r: Coord)
    ensures r == Sub(a, Coord(k, k))
  {
    Coord(Wrap32(a.x - k), Wrap32(a.y - k))
  }

  function MulScalar(a: Coord, k: Int32): (r: Coord)
    ensures r == Mul(a, Coord(k, k))
  {
    Coord(Wrap32(a.x * k), Wrap32(a.y * k))
  }

  function DivScalar(a: Coord, k: Int32): (r: Result<Coord>)
    ensures r == Div(a, Coord(k, k))
  {
    var qx :- Int32Div(a.x, k);
    var qy :- Int32Div(a.y, k);
    Ok(Coord(qx, qy))
  }

  /** Subtraction undoes addition, even when the addition wrapped around. */
  lemma AddSubCancel(a: Coord, b: Coord)
    ensures Sub(Add(a, b), b) == a
  {
    var s := Add(a, b);
    Wrap32Congruent(s.x - b.x, a.x);
    Wrap32Congruent(s.y - b.y, a.y);
  }

  /** Division undoes a multiplication that did not wrap. */
  lemma MulDivCancel(a: Coord, b: Coord)
    requires b.x != 0 && b.y != 0
    requires INT32_MIN <= a.x * b.x <= INT32_MAX && INT32_MIN <= a.y * b.y <= INT32_MAX
    ensures Div(Mul(a, b), b) == Ok(a)
  {
    var m := Mul(a, b);
    assert m.x == a.x * b.x && m.y == a.y * b.y;
    TruncDivExact(a.x, b.x);
    TruncDivExact(a.y, b.y);
    assert !(m.x == INT32_MIN && b.x == -1) by { MinTimesMinusOne(a.x, b.x); }
    assert !(m.y == INT32_MIN && b.y == -1) by { MinTimesMinusOne(a.y, b.y); }
  }

  /** The only Int32 operands of `int.MinValue / -1` do not arise from a
      multiplication by -1 of an Int32. */
  lemma MinTimesMinusOne(a: int, b: int)
    requires INT32_MIN <= a <= INT32_MAX
    ensures !(a * b == INT32_MIN && b == -1)
  {
  }

  lemma TruncDivExact(q: int, b: int)
    requires b != 0
    ensures TruncDiv(q * b, b) == q
  {
    var t := TruncDiv(q * b, b);
    var d := t - q;
    assert q * b - t * b == -d * b;
    if d != 0 {
      AbsMulAtLeast(d, b);
    }
  }

  lemma AbsMulAtLeast(d: int, b: int)
    requires d != 0
    ensures Abs(-d * b) >= Abs(b)
  {
    AbsMul(-d, b);
    MulMonotone(Abs(-d), Abs(b));
  }

  lemma AbsMul(x: int, y: int)
    ensures Abs(x * y) == Abs(x) * Abs(y)
  {
    if x < 0 && y < 0 {
      assert x * y == (-x) * (-y);
    } else if x < 0 {
      assert x * y == -((-x) * y);
    } else if y < 0 {
      assert x * y == -(x * (-y));
    }
  }

  lemma MulMonotone(m: nat, n: nat)
    requires m >= 1
    ensures m * n >= n
  {
    assert m * n == (m - 1) * n + n;
  }

  // ---------------------------------------------------------------- Size

  /** A width and height. */
  datatype Size = Size(w: Int32, h: Int32)

  // ---------------------------------------------------------------- Text

  predicate IsDigit(c: char) {
    '0' <= c <= '9'
  }

  predicate AllDigits(s: string) {
    forall i :: 0 <= i < |s| ==> IsDigit(s[i])
  }

  function DigitChar(d: int): (c: char)
    requires 0 <= d < 10
    ensures IsDigit(c) && c as int - '0' as int == d
  {
    ('0' as int + d) as char
  }

  /** The decimal digits of `n`, most significant first, no leading zeros. */
  function NatToString(n: nat): (s: string)
    ensures |s| >= 1 && AllDigits(s)
    ensures s[0] == '0' <==> n == 0
    ensures n == 0 ==> s == "0"
    decreases n
  {
    if n < 10 then [DigitChar(n)] else NatToString(n / 10) + [DigitChar(n % 10)]
  }


  /** The value of a string of decimal digits. */
  function DigitsValue(s: string): nat
    requires AllDigits(s)
  {
    if |s| == 0 then 0
    else
      assert IsDigit(s[|s| - 1]);
      DigitsValue(s[..|s| - 1]) * 10 + (s[|s| - 1] as int - '0' as int)
  }

  /** Reads back what `IntToString` writes: an optional '-' and one or more digits. */
  function ParseInt(s: string): Option<int> {
    if |s| >= 2 && s[0] == '-' && AllDigits(s[1..]) then (var v: int := DigitsValue(s[1..]); Some(-v))
    else if |s| >= 1 && AllDigits(s) then Some(DigitsValue(s))
    else None
  }

  lemma {:induction false} NatToStringValue(n: nat)
    ensures DigitsValue(NatToString(n)) == n
    decreases n
  {
    if n >= 10 {
      var s := NatToString(n);
      assert s[..|s| - 1] == NatToString(n / 10);
      NatToStringValue(n / 10);
    }
  }

  /** Decimal text as `int.ToString()` writes it: an optional '-', then
      digits with no leading zero, and never "-0". */
  predicate Canonical(s: string) {
    |s| >= 1 &&
    if s[0] == '-' then |s| >= 2 && AllDigits(s[1..]) && s[1] != '0'
    else AllDigits(s) && (s[0] == '0' ==> |s| == 1)
  }

  /** `int.ToString()` under the invariant culture: the canonical decimal
      text, with a '-' exactly for negative numbers, which reads back as the
      number. */
  function IntToString(n: int): (s: string)
    ensures |s| >= 1
    ensures forall i :: 0 <= i < |s| ==> IsDigit(s[i]) || (i == 0 && s[i] == '-')
    ensures Canonical(s)
    ensures s[0] == '-' <==> n < 0
    ensures ParseInt(s) == Some(n)
  {
    if n < 0 then
      NatToStringValue(-n);
      var s := "-" + NatToString(-n);
      assert s[1..] == NatToString(-n);
      s
    else
      NatToStringValue(n);
      NatToString(n)
  }

  /** Digits with a nonzero first digit have a nonzero value. */
  lemma {:induction false} LeadingDigitPositive(t: string)
    requires |t| >= 1 && AllDigits(t) && t[0] != '0'
    ensures DigitsValue(t) >= 1
    decreases |t|
  {
    if |t| >= 2 {
      var p := t[..|t| - 1];
      assert p[0] == t[0];
      LeadingDigitPositive(p);
    }
  }

  /** Digits without a leading zero are the text `NatToString` writes for
      their value. */
  lemma {:induction false} CanonicalDigits(t: string)
    requires |t| >= 1 && AllDigits(t) && (t[0] == '0' ==> |t| == 1)
    ensures NatToString(DigitsValue(t)) == t
    decreases |t|
  {
    var v := DigitsValue(t);
    var d := t[|t| - 1] as int - '0' as int;
    if |t| == 1 {
      assert t[..0] == [];
    } else {
      var p := t[..|t| - 1];
      assert p[0] == t[0];
      LeadingDigitPositive(p);
      CanonicalDigits(p);
      assert v == DigitsValue(p) * 10 + d;
      assert v / 10 == DigitsValue(p) && v % 10 == d;
      assert t == p + [t[|t| - 1]];
    }
  }

  /** A canonical text is the only one `IntToString` writes for its value:
      the text of a number is fixed, not merely readable. */
  lemma IntToStringUnique(s: string, n: int)
    requires Canonical(s) && ParseInt(s) == Some(n)
    ensures IntToString(n) == s
  {
    if s[0] == '-' {
      var t := s[1..];
      LeadingDigitPositive(t);
      CanonicalDigits(t);
      assert s == "-" + t;
    } else {
      CanonicalDigits(s);
    }
  }

  /** The first position of `c` in `s`. */
  function IndexOfChar(s: string, c: char): (r: Option<nat>)
    ensures r.Some? ==> r.value < |s| && s[r.value] == c && c !in s[..r.value]
    ensures r.None? ==> c !in s
  {
    if |s| == 0 then None
    else if s[0] == c then Some(0)
    else match IndexOfChar(s[1..], c)
      case None => None
      case Some(i) => assert s[1..][..i] == s[1..i + 1]; Some(i + 1)
  }

  lemma IndexOfCharAfterPrefix(p: string, c: char, t: string)
    requires c !in p
    ensures IndexOfChar(p + [c] + t, c) == Some(|p|)
  {
    var s := p + [c] + t;
    var r := IndexOfChar(s, c);
    assert s[|p|] == c;
    assert c in s;
    assert forall j | 0 <= j < r.value :: s[..r.value][j] == s[j];
    assert forall j | 0 <= j < |p| :: s[j] == p[j];
  }

  /** Splits `s` at the first character of `sep`, checks the whole separator is
      there, and parses both sides as integers. */
  function ParseIntPair(s: string, sep: string): Option<(int, int)>
    requires |sep| >= 1
  {
    match IndexOfChar(s, sep[0])
    case None => None
    case Some(i) =>
      if i + |sep| <= |s| && s[i..i + |sep|] == sep then
        match (ParseInt(s[..i]), ParseInt(s[i + |sep|..]))
        case (Some(a), Some(b)) => Some((a, b))
        case _ => None
      else None
  }

  lemma ParseIntPairOfJoin(a: int, b: int, sep: string)
    requires |sep| >= 1 && !IsDigit(sep[0]) && sep[0] != '-'
    ensures ParseIntPair(IntToString(a) + sep + IntToString(b), sep) == Some((a, b))
  {
    ParseIntPairOfParts(IntToString(a), IntToString(b), sep, a, b);
  }

  /** Two numbers' texts joined by a separator that starts with neither a
      digit nor '-' split back into both numbers. */
  lemma ParseIntPairOfParts(sa: string, sb: string, sep: string, a: int, b: int)
    requires |sep| >= 1 && !IsDigit(sep[0]) && sep[0] != '-'
    requires forall i :: 0 <= i < |sa| ==> IsDigit(sa[i]) || (i == 0 && sa[i] == '-')
    requires ParseInt(sa) == Some(a) && ParseInt(sb) == Some(b)
    ensures ParseIntPair(sa + sep + sb, sep) == Some((a, b))
  {
    var s := sa + sep + sb;
    assert sep[0] !in sa;
    assert s[..|sa|] == sa;
    assert IndexOfChar(s, sep[0]) == Some(|sa|) by {
      IndexOfCharAfterPrefix(sa, sep[0], sep[1..] + sb);
      assert s == sa + [sep[0]] + (sep[1..] + sb);
    }
    assert s[|sa|..|sa| + |sep|] == sep;
    assert s[|sa| + |sep|..] == sb;
  }

  /** `Coord.ToString()`: "X, Y", which splits at its comma back into both
      components. */
  function CoordToString(c: Coord): (r: string)
    ensures ParseIntPair(r, ", ") == Some((c.x, c.y))
  {
    ParseIntPairOfJoin(c.x, c.y, ", ");
    IntToString(c.x) + ", " + IntToString(c.y)
  }

  /** `Size.ToString()`: "WxH", which splits at its 'x' back into width and
      height. */
  function SizeToString(s: Size): (r: string)
    ensures ParseIntPair(r, "x") == Some((s.w, s.h))
  {
    ParseIntPairOfJoin(s.w, s.h, "x");
    IntToString(s.w) + "x" + IntToString(s.h)
  }

  /** "X, Y" with both numbers in canonical text is the only text
      `CoordToString` writes. */
  lemma CoordTextUnique(c: Coord, sx: string, sy: string)
    requires Canonical(sx) && ParseInt(sx) == Some(c.x)
    requires Canonical(sy) && ParseInt(sy) == Some(c.y)
    ensures CoordToString(c) == sx + ", " + sy
  {
    IntToStringUnique(sx, c.x);
    IntToStringUnique(sy, c.y);
  }

  /** "WxH" with both numbers in canonical text is the only text
      `SizeToString` writes. */
  lemma SizeTextUnique(s: Size, sw: string, sh: string)
    requires Canonical(sw) && ParseInt(sw) == Some(s.w)
    requires Canonical(sh) && ParseInt(sh) == Some(s.h)
    ensures SizeToString(s) == sw + "x" + sh
  {
    IntToStringUnique(sw, s.w);
    IntToStringUnique(sh, s.h);
  }

  // ---------------------------------------------------------------- ColorRGBA

  /** An RGBA colour with byte channels. */
  datatype ColorRGBA = ColorRGBA(red: Byte, green: Byte, blue: Byte, alpha: Byte)

  /** The three-channel constructor: fully opaque. */
  function Rgb(r: Byte, g: Byte, b: Byte): (c: ColorRGBA)
    ensures c.alpha == 255
    ensures c.red == r && c.green == g && c.blue == b
  {
    ColorRGBA(r, g, b, 255)
  }

  const WHITE: ColorRGBA := Rgb(255, 255, 255)
  const BLACK: ColorRGBA := Rgb(0, 0, 0)
  const RED: ColorRGBA := Rgb(255, 0, 0)
  const GREEN: ColorRGBA := Rgb(0, 255, 0)
  const BLUE: ColorRGBA := Rgb(0, 0, 255)

  /** `operator ==`: all four channels agree. */
  function ColorEquals(a: ColorRGBA, b: ColorRGBA): (r: bool)
    ensures r <==> a == b
  {
    a.red == b.red && a.blue == b.blue && a.green == b.green && a.alpha == b.alpha
  }

  /** `operator !=`: the negation of `==`. */
  function ColorNotEquals(a: ColorRGBA, b: ColorRGBA): (r: bool)
    ensures r <==> a != b
  {
    !ColorEquals(a, b)
  }

  /** Colour equality is an equivalence relation. */
  lemma ColorEqualsIsEquivalence(a: ColorRGBA, b: ColorRGBA, c: ColorRGBA)
    ensures ColorEquals(a, a)
    ensures ColorEquals(a, b) ==> ColorEquals(b, a)
    ensures ColorEquals(a, b) && ColorEquals(b, c) ==> ColorEquals(a, c)
  {
  }

  /** The named colours are opaque and pairwise different. */
  lemma NamedColours()
    ensures WHITE.alpha == BLACK.alpha == RED.alpha == GREEN.alpha == BLUE.alpha == 255
    ensures WHITE == ColorRGBA(255, 255, 255, 255) && BLACK == ColorRGBA(0, 0, 0, 255)
    ensures RED == ColorRGBA(255, 0, 0, 255) && GREEN == ColorRGBA(0, 255, 0, 255)
    ensures BLUE == ColorRGBA(0, 0, 255, 255)
    ensures ColorNotEquals(RED, GREEN) && ColorNotEquals(GREEN, BLUE) && ColorNotEquals(RED, BLUE)
    ensures ColorNotEquals(WHITE, BLACK)
  {
  }
}

=== FILE: text_cache.dfy ===
/** The rendered-text cache: textures keyed by (text, font, colour), at most
    `maxCached` of them. Rendering is an outside service that may fail; which
    entry a full cache gives up is the dictionary's enumeration order, which
    the model leaves as a choice of any cached key.
 */
module TextCache {
  import opened Errors
  import opened Structs
  import opened Resources

  /** `TextCacheInfo`: a struct, so dictionary lookups compare its fields. */
  datatype TextCacheInfo = TextCacheInfo(text: string, font: Font, color: ColorRGBA)

  /** A non-null native texture pointer. */
  type Handle = h: int | h != 0 witness 1

  datatype Cache = Cache(maxCached: int, entries: map<TextCacheInfo, Handle>)

  const DefaultMaxCached: int := 100

  /** The constructor: an empty cache; the capacity defaults to 100. */
  function NewTextCache(maxCached: int := DefaultMaxCached): (c: Cache)
    ensures c.entries == map[] && c.maxCached == maxCached
  {
    Cache(maxCached, map[])
  }

  /** The bound every cache built by the constructor with a positive capacity
      keeps. */
  predicate WithinCapacity(c: Cache) {
    |c.entries| <= c.maxCached
  }

  /** `HasCache`: some key has the same font and text and a colour equal under
      `ColorRGBA ==`. */
  function HasCache(c: Cache, font: Font, text: string, color: ColorRGBA): (b: bool)
    ensures b <==> TextCacheInfo(text, font, color) in c.entries
  {
    exists info :: info in c.entries && info.font == font && info.text == text && ColorEquals(info.color, color)
  }

  /** `GetTexture`: the cached texture, or the null pointer 0 on a miss. */
  function GetTexture(c: Cache, font: Font, text: string, color: ColorRGBA): (r: int)
    ensures r != 0 <==> HasCache(c, font, text, color)
    ensures r != 0 ==> r == c.entries[TextCacheInfo(text, font, color)]
  {
    var key := TextCacheInfo(text, font, color);
    if key in c.entries then c.entries[key] else 0
  }

  /** What the font renderer and the texture upload produce for one miss. */
  datatype RenderOutcome = SurfaceFailed | TextureFailed | Rendered(texture: Handle)

  /** The cache after making room for one entry: a full non-empty cache gives
      up `victim`. A full empty cache (capacity 0 or below) removes nothing. */
  function MakeRoom(c: Cache, victim: TextCacheInfo): (r: Cache)
    requires |c.entries| > 0 ==> victim in c.entries
    ensures r.maxCached == c.maxCached
    ensures |c.entries| >= c.maxCached && |c.entries| > 0 ==> r.entries == c.entries - {victim} && |r.entries| == |c.entries| - 1
    ensures |c.entries| < c.maxCached || |c.entries| == 0 ==> r == c
  {
    if |c.entries| >= c.maxCached && |c.entries| > 0 then c.(entries := c.entries - {victim}) else c
  }

  /** `RetrieveTexture`. A hit returns the cached texture and changes nothing.
      A miss first evicts when the cache is full, then renders; a failed
      render throws, keeping the eviction and adding nothing, and a successful
      one caches and returns the new texture. */
  function RetrieveTexture(c: Cache, font: Font, text: string, color: ColorRGBA,
                           victim: TextCacheInfo, render: RenderOutcome): (r: Outcome<Cache, Handle>)
    requires |c.entries| > 0 ==> victim in c.entries
    ensures r.state.maxCached == c.maxCached
    ensures HasCache(c, font, text, color) ==> r == Outcome(c, Ok(c.entries[TextCacheInfo(text, font, color)]))
    ensures !HasCache(c, font, text, color) && render.Rendered? ==>
              r.result == Ok(render.texture)
              && r.state.entries == MakeRoom(c, victim).entries[TextCacheInfo(text, font, color) := render.texture]
    ensures !HasCache(c, font, text, color) && !render.Rendered? ==>
              r.state == MakeRoom(c, victim) && r.result.Err? && r.result.error.EngineException?
    ensures c.maxCached >= 1 && WithinCapacity(c) ==> WithinCapacity(r.state)
  {
    var key := TextCacheInfo(text, font, color);
    if HasCache(c, font, text, color) then Outcome(c, Ok(c.entries[key]))
    else
      var room := MakeRoom(c, victim);
      match render
      case SurfaceFailed => Outcome(room, Err(EngineException("Error creating surface.", "TextCache.RetrieveTexture()")))
      case TextureFailed => Outcome(room, Err(EngineException("Error creating texture from surface.", "TextCache.RetrieveTexture()")))
      case Rendered(t) => Outcome(room.(entries := room.entries[key := t]), Ok(t))
  }

  /** Once a miss has been rendered, asking again is a hit that returns the
      same texture without rendering, whatever the renderer would do. */
  lemma RetrieveAgainHits(c: Cache, font: Font, text: string, color: ColorRGBA,
                          victim: TextCacheInfo, t: Handle, victim': TextCacheInfo, render': RenderOutcome)
    requires |c.entries| > 0 ==> victim in c.entries
    requires !HasCache(c, font, text, color)
    requires var c' := RetrieveTexture(c, font, text, color, victim, Rendered(t)).state;
             |c'.entries| > 0 ==> victim' in c'.entries
    ensures var c' := RetrieveTexture(c, font, text, color, victim, Rendered(t)).state;
            RetrieveTexture(c', font, text, color, victim', render') == Outcome(c', Ok(t))
  {
  }

  /** A miss in a full cache evicts exactly the victim: every other entry
      survives, and the new entry is present. */
  lemma MissEvictsOnlyVictim(c: Cache, font: Font, text: string, color: ColorRGBA,
                             victim: TextCacheInfo, t: Handle, other: TextCacheInfo)
    requires victim in c.entries && |c.entries| >= c.maxCached
    requires !HasCache(c, font, text, color)
    ensures var c' := RetrieveTexture(c, font, text, color, victim, Rendered(t)).state;
            (other in c.entries && other != victim ==> other in c'.entries && c'.entries[other] == c.entries[other])
            && victim !in c'.entries
            && GetTexture(c', font, text, color) == t
  {
    assert TextCacheInfo(text, font, color) != victim;
  }
}
